=== FILE: README.md ===
# A model of the search engine's indexing and evaluation core

This project models the two sequential cores of a small HTML search engine.

- **Indexing and request parsing** (`Parser`):
  - Page text is cleaned into words. Punctuation and whitespace separate words, words are lower-cased, only all-letter words that are not stopwords are kept, and the kept words are stemmed.
  - Unigrams and bigrams are built from the words.
  - Per-tag structural scores are summed into each document's term→weight map, and multi-word terms are scaled by the n-gram weight.
  - The document-frequency (IDF) table is counted.
  - Request terms are read from the requests page. A `dd` element is read only right after a `dt` whose text is the source's label "mots cl√©s" (a mis-decoded "mots clés"), under the id of the last `h2`. A page that spells the label "mots clés" therefore yields no keyword field at all. Primary terms weigh 1.0, synonym groups get a group weight, and the first weight stored for a (request, term) pair wins.
  - The request id is taken from a relevance-judgement file name.
- **Ranking and evaluation** (`Evaluator`):
  - the query·document dot product over the inverted index;
  - the query norm;
  - the raw, Jaccard, Dice and cosine similarity transforms;
  - the stable descending sort of results;
  - the number of relevant documents in the top k;
  - precision and recall ratios and their means;
  - interpolated precision at a recall target, and the curve of such points.

Everything is pure functions over sequences and maps.

- `real` stands in for Java's `double`.
- A Java `HashMap`'s iteration order, which the source's results depend on, is an explicit sequence parameter.
- Stemming, the stopword list, lower-casing and the Unicode classes `\p{P}`, `\s` and `\p{L}` are the fields of an abstract `Text.Lexicon`.
- jsoup pages are sequences of `(tagName, ownText)` elements (`Html.Page`).
- `Math.sqrt` is a function parameter of the cosine branch.
- The SQLite tables are maps.

Modules, one per file:

- `Outcomes`: Option/Result.
- `Strings`: Java's `String.split` with a literal separator.
- `Text`: `clean` and `getListOfWords`.
- `NGrams`: n-grams.
- `Html`: the element model.
- `Documents`: `cleanDoc`, `parseDocument` and `updateIdf`.
- `Requests`: `parseRequests` and the requests table.
- `QrelNames`: `cleanRequestFilename`.
- `Sorting`: `sortByValue`.
- `Ranking`: `generateResults`, `calculateRequestNorm` and `calculateSimilarity`.
- `Metrics`: top-k counting, precision, recall and interpolation.

## Model

| member | source | states |
|---|---|---|
| Strings.Split | src/fr/insa/Parser.java:325 | Splitting at every occurrence of a separator gives at least one piece, the pieces joined with the separator give back the text, and with a one-character separator no piece contains it |
| Strings.JavaSplit | src/fr/insa/Parser.java:216-217 | Java's `split`: the full split without its trailing empty pieces, except that a text with no separator comes back as the one-element array of itself (so `""` gives `[""]`) |
| Strings.SplitJoin | src/fr/insa/Parser.java:325 | Round trip: splitting words joined by a character they do not contain gives back the words |
| Text.ListOfWords | src/fr/insa/Parser.java:310-320 | Never emits more words than it is given; with a well-formed lexicon no emitted word is empty or contains a space |
| Text.ListOfWordsMembers | src/fr/insa/Parser.java:302-320 | A word is emitted iff it is stem(lower(w)) for an input word w whose lower-case form is non-empty, all letters and not a stopword |
| Text.ListOfWordsSingle | src/fr/insa/Parser.java:312-317 | One input word yields [stem(lower(w))] when it is kept, and nothing otherwise: the stopword and letter tests see the lower-case form before stemming |
| Text.ListOfWordsAppend | src/fr/insa/Parser.java:310-320 | Word order is preserved: the words of a concatenation are the words of each part, in order |
| Text.Clean | src/fr/insa/Parser.java:322-327 | With a well-formed lexicon, cleaning never yields an empty word or one containing a space |
| Text.CleanIsWordsOfTokens | src/fr/insa/Parser.java:322-327 | Blanking punctuation, collapsing whitespace runs and splitting at spaces keeps exactly the words between separators, in order: clean(text) is getListOfWords of the non-empty separator-free tokens |
| NGrams.MakeNGrams | src/fr/insa/Parser.java:337-347 | For n ≥ 1, there are max(0, \|words\|−n+1) phrases, and phrase i is words[i..i+n) joined with single spaces |
| NGrams.NGramList | src/fr/insa/Parser.java:329-335 | The term list starts with the word list unchanged |
| NGrams.UnigramsAreWords | src/fr/insa/Parser.java:331-332 | The 1-grams of a word list are the words themselves |
| NGrams.TermsShape | src/fr/insa/Parser.java:329-347 | With n-grams up to 2, the terms are the words followed by the \|words\|−1 bigrams w[i] + " " + w[i+1] |
| NGrams.BlankMarksBigrams | src/fr/insa/Parser.java:119 | For space-free words, a term contains a space iff it is a bigram |
| NGrams.WordsAndBigramsAreTerms | src/fr/insa/Parser.java:329-335 | Every word and every adjacent-pair bigram is a term |
| Documents.TagScore | src/fr/insa/Parser.java:138-162 | The score is in [0, 3.15]; it is 1 when tag weighting is off or the tag is unlisted, 0 for the excluded tags, and at least 1.8 for the emphasised ones |
| Documents.Accumulate | src/fr/insa/Parser.java:167-173 | The keys become the old keys plus the element's terms, and each term's weight grows by score × its number of occurrences |
| Documents.AccumulateGroups | src/fr/insa/Parser.java:136-175 | Over all elements, the keys are the old keys plus every term that occurs, and each weight grows by the term's total weight |
| Documents.WeightIsScoredCount | src/fr/insa/Parser.java:134-177 | The accumulated weight of a term is the sum over elements of score(tag) × the term's occurrences in that element's n-gram list |
| Documents.CleanDoc | src/fr/insa/Parser.java:134-177 | A term is a key iff it occurs in some element's n-gram list, and its value is its accumulated weight |
| Documents.UnweightedIsCount | src/fr/insa/Parser.java:138-140 | With tag weighting off, every weight is the term's raw occurrence count |
| Documents.ExcludedElementOnlyAddsKeys | src/fr/insa/Parser.java:159-173 | An element with a zero-scored tag still adds its terms as keys, with weight 0, and leaves every existing weight unchanged |
| Documents.DocumentTermWeights | src/fr/insa/Parser.java:104-125 | For each head or body element, its words are stored with their accumulated weight and its bigrams with accumulated weight × weightNgram |
| Documents.AddDocumentConsistent | src/fr/insa/Parser.java:113-123 | Adding one new document's distinct terms to the IDF table keeps every count equal to the number of indexed documents holding the term |
| Documents.IndexFilesConsistent | src/fr/insa/Parser.java:66-93 | Over a file list with distinct names, the IDF table stays the per-term document count. The document count grows by the number of files, old documents are untouched, and each parsed file with terms is indexed under its name |
| Documents.DocumentFrequenciesCountDocuments | src/fr/insa/Parser.java:184-190 | After parsing all files, idfs[t] is the number of documents whose term map contains t, and t has an entry iff some document contains it |
| Requests.ReadsArePositional | src/fr/insa/Parser.java:208-245 | The element loop reads exactly the `dd` elements that directly follow a `dt` labelled "mots cl√©s" (the source's literal, a mis-decoded "mots clés"), each under the text of the last `h2` before it (or "" if none) |
| Requests.CorrectlySpelledLabelReadsNothing | src/fr/insa/Parser.java:242-245 | A page whose keyword labels are spelled "mots clés" (with U+00E9) yields no keyword field at all, because the comparison is against the literal "mots cl√©s" |
| Requests.GroupWeight | src/fr/insa/Parser.java:239 | As written, a group term weighs length/3; as intended, 1/(3·length); never negative |
| Requests.FieldsTermsMembers | src/fr/insa/Parser.java:231-236 | A group's term list holds exactly the n-grams of its comma-separated synonyms |
| Requests.GroupInsertsWeights | src/fr/insa/Parser.java:226-241 | Every insert from a synonym group carries that group's term with the group weight of the group's term count |
| Requests.FieldInsertsGroups | src/fr/insa/Parser.java:226-241 | After the primary prefix, every insert of a field carries a term of one of its synonym groups, with that group's weight |
| Requests.FieldInserts | src/fr/insa/Parser.java:215-241 | A keyword field fails (Java's out-of-bounds access) iff it splits at " #," into no pieces. Otherwise every insert is under the current request id, and the inserts begin with the primary terms at weight 1.0 |
| Requests.InsertsOfReads | src/fr/insa/Parser.java:212-245 | Parsing the read fields fails iff one of them splits into no pieces |
| Requests.EmptyFieldIsSeparators | src/fr/insa/Parser.java:216-217 | A field splits into no pieces iff it is " #," repeated one or more times |
| Requests.StoreKeepsFirst | src/fr/insa/Database.java:196-203 | Storing inserts never changes an existing (request, term) row; a new key gets the weight of its first insert |
| Requests.FirstWeightFound | src/fr/insa/Database.java:205-217 | A key has a first weight iff some insert carries it, and that weight belongs to the earliest such insert |
| Requests.RequestsTableFirstWins | src/fr/insa/Database.java:183-203 | The requests table has a row for (request, term) iff some insert carries that key, with the weight of the first one |
| Requests.PrimaryTermWeighsOne | src/fr/insa/Parser.java:218-224 | Within one keyword field's inserts, the first insert of a primary term carries weight 1.0, whatever synonym groups of that field repeat it |
| Requests.PrimaryTermFirstWeight | src/fr/insa/Parser.java:212-245 | Across the fields read, the first insert of a field's primary term under its request id weighs 1.0, provided no earlier field was read under the same id |
| Requests.PrimaryTermInTable | src/fr/insa/Parser.java:208-245 | In the requests table, a primary term of the first keyword field read under a request id is stored with weight 1.0 |
| Requests.AsWrittenGroupOutweighsPrimary | src/fr/insa/Parser.java:239 | As written, a group of four or more terms gives each term a weight above a primary term's 1.0 (4/3 for four terms), and the group's total weight is length²/3 |
| Requests.IntendedGroupSharesAThird | src/fr/insa/Parser.java:239 | As intended, each group term weighs in (0, 1/3], and a group's terms together weigh exactly 1/3 |
| Requests.AsWrittenSynonymsOutweighKeywords | src/fr/insa/Parser.java:237-240 | As written, when every synonym group of a field yields four or more terms, every synonym insert outweighs a primary keyword's 1.0 |
| Requests.IntendedSynonymsWeighAtMostAThird | src/fr/insa/Parser.java:237-240 | As intended, every synonym insert weighs more than 0 and at most 1/3, whatever the size of its group |
| QrelNames.FirstMatch | src/fr/insa/Parser.java:261-263 | `find()` returns the leftmost position where "qrelQ" is followed by a digit, or none when no position matches |
| QrelNames.Digits | src/fr/insa/Parser.java:261 | `\d+` takes the maximal run of ASCII digits at a position |
| QrelNames.CleanRequestFilename | src/fr/insa/Parser.java:260-264 | The id is "Q" followed by the digits of the first match, or the name unchanged when there is no match |
| QrelNames.CleanKeepsOnlyUnmatched | src/fr/insa/Parser.java:260-264 | The name comes back unchanged iff the pattern matches nowhere in it |
| QrelNames.CleanTakesLeftmostMatch | src/fr/insa/Parser.java:260-264 | When p is the leftmost match, the id is "Q" plus the whole digit run after position p |
| QrelNames.ConventionalName | src/fr/insa/Parser.java:260-264 | "qrelQ12.txt" gives "Q12"; "notes.txt" is kept |
| Sorting.SortByValue | src/fr/insa/Evaluator.java:272-282 | The result is a permutation of the entries, with scores non-increasing |
| Sorting.SortStable | src/fr/insa/Evaluator.java:275 | For every score, the entries with that score keep their input order |
| Sorting.SortKeepsDescending | src/fr/insa/Evaluator.java:272-282 | Entries already in descending order come back unchanged |
| Ranking.TermScore | src/fr/insa/Evaluator.java:144-148 | A term missing from the document scores 0; with both flags off the score is the stored (TF-IDF) weight |
| Ranking.GenerateResults | src/fr/insa/Evaluator.java:134-155 | An empty query gives no results. Otherwise the keys are exactly the indexed documents, and each value is the sum of the query terms' scores against that document |
| Ranking.DotOrderIrrelevant | src/fr/insa/Evaluator.java:137-153 | A document's score does not depend on the order in which the query's entries are visited |
| Ranking.ResultsOrderIrrelevant | src/fr/insa/Evaluator.java:137-153 | The whole result map does not depend on the query's iteration order |
| Ranking.DisjointDocumentScoresZero | src/fr/insa/Evaluator.java:134-155 | For a non-empty query, a document holding none of its terms is listed with score 0 |
| Ranking.NormValue | src/fr/insa/Evaluator.java:119-121 | Under the IDF flag an unknown term's value is 0; with both flags off every term's value is 1 |
| Ranking.RequestNorm | src/fr/insa/Evaluator.java:113-126 | The norm is non-negative, and with both flags off it equals the number of query terms |
| Ranking.UnknownTermsAddNothing | src/fr/insa/Evaluator.java:113-126 | Under the IDF flag, terms missing from the IDF table add nothing to the norm |
| Ranking.Similarity | src/fr/insa/Evaluator.java:91-103 | With no flag the score is unchanged. With the cosine flag, whatever the others, the value times sqrt(‖D‖·‖Q‖) is the score. Otherwise, with Jaccard, the value times (‖D‖+‖Q‖−score) is the score. Otherwise, with Dice, the value times (‖D‖+‖Q‖) is twice the score. A zero denominator or a missing document norm fails, and a zero score stays zero |
| Ranking.ScoreEntries | src/fr/insa/Evaluator.java:91-103 | Rescoring succeeds iff every document's transform does, and keeps the documents in iteration order |
| Ranking.CalculateSimilarity | src/fr/insa/Evaluator.java:89-105 | The ranking fails iff some document's transform fails. On success it is a permutation of the rescored entries, lists every result exactly once (distinct documents, all covered), and is in non-increasing order of the transformed score |
| Ranking.RawScoresRanked | src/fr/insa/Evaluator.java:89-105 | With no transform, the ranking succeeds and is a reordering of the same (document, score) pairs |
| Metrics.Considered | src/fr/insa/Evaluator.java:74-75 | The loop stops after min(k, \|results\|) entries; a negative k never meets the break and counts all |
| Metrics.NumberOfPertinentDocuments | src/fr/insa/Evaluator.java:71-80 | The loop returns the number of relevant documents among the considered first entries |
| Metrics.FoundMonotone | src/fr/insa/Evaluator.java:71-80 | The count is non-decreasing in the prefix length (k ≥ 0) |
| Metrics.FoundCountsDocuments | src/fr/insa/Evaluator.java:71-80 | With distinct keys, the count is the size of the set of relevant documents in the top k |
| Metrics.FoundAtMostRelevant | src/fr/insa/Evaluator.java:221 | With distinct result keys, the count never exceeds the number of relevant entries, so recall is at most 1 |
| Metrics.Ratio | src/fr/insa/Evaluator.java:202 | The ratio is undefined iff the denominator is 0, and lies in [0,1] when 0 ≤ count ≤ denominator |
| Metrics.PrecisionInUnitRange | src/fr/insa/Evaluator.java:198-208 | For k > 0, P@k is defined and in [0,1] |
| Metrics.RecallInUnitRange | src/fr/insa/Evaluator.java:217-227 | On a ranking with distinct documents (which every successful ranking has), R@k is undefined iff the relevant list is empty and otherwise lies in [0,1] |
| Metrics.Mean | src/fr/insa/Evaluator.java:206 | The mean over requests is undefined exactly when there are no requests |
| Metrics.MeanInUnitRange | src/fr/insa/Evaluator.java:225 | A mean of values in [0,1] is in [0,1] |
| Metrics.PrecisionAt | src/fr/insa/Evaluator.java:260 | found/i at every position is in [0,1] |
| Metrics.PrecisionForRecall | src/fr/insa/Evaluator.java:253-264 | The result is in [0,1]. It is the maximum of found/i over the positions where found reaches the target, or 0 when there are none |
| Metrics.InterpolatedAntitone | src/fr/insa/Evaluator.java:253-264 | A higher target never yields a higher interpolated precision |
| Metrics.UnreachableTargetGivesZero | src/fr/insa/Evaluator.java:253-264 | A target above the number of relevant documents found in the whole list gives 0 |
| Metrics.CurvePoints | src/fr/insa/Evaluator.java:245-249 | There is one point per recall level, each the interpolated precision at relevant-count × recall |
| Metrics.CurveNonIncreasing | src/fr/insa/Evaluator.java:245-249 | Along increasing recall levels, the curve never rises |

## Left out

- TF-IDF transform and document norms (`updateInvertedIndexWithTFIDFAndCalculateNorms`, Evaluator.java:161-189): these rest on `Math.log`/`Math.pow` over doubles, so the norms enter the model as a map parameter. That transform overwrites every value of the inverted index with its TF-IDF weight (Evaluator.java:184) before `generateResults` runs, so the values of Ranking's `index` parameter stand for those unmodelled TF-IDF weights. Nothing connects them to the accumulated weights of `Documents.Collection.index`.
- Ranking.Similarity: the cosine branch takes `Math.sqrt` as a function parameter. Its value is stated relative to that function, not to a real square root.
- Floating point: `double` is exact `real`, so rounding is not modelled. Java's NaN and infinities from a zero denominator are instead modelled as a failure (`Ranking.Similarity`) or as `None` (`Metrics.Ratio`, `Metrics.Mean`).
- Sorting.SortByValue: `Double.compareTo`'s ordering of NaN and -0.0 is not modelled, since exact reals have neither.
- jsoup parsing: a page is given as its head and body element lists. As with `select("*")`, these may include the `head` and `body` elements themselves, whose own text counts like any other element's.
- Stemming (the Snowball wrapper), loading the stopword file, `toLowerCase` and the Unicode classes are the abstract `Text.Lexicon`. Its `Valid` predicate states only what the properties rely on: lower-casing keeps the empty string empty, the blank is whitespace and not a letter, and stemming a non-empty word of letters gives a non-empty word of letters.
- Directory listing, the order of the files, reading the files and the IOException path are left out. A page is given as parsed or unreadable (`Documents.Source`), and an unreadable file is still counted in the number of documents, as in the source.
- All SQLite/JDBC plumbing is left out, including prepared statements, batching by `dbBatchInterval`, SQL built by string concatenation (a quote in a term would break the statement) and the read-back of tables. The tables are maps, and of the database only the rule that a request insert on an existing (id, word) pair is a no-op is kept.
- Requests.FieldInserts: a field made only of " #," separators makes the source throw midway through the request loop. It is modelled as a failure of the whole parse; the rows inserted before the throw are not modelled.
- Documents.IndexFilesConsistent: it requires distinct file names, which a directory listing guarantees. With repeated names, the source's second insert batch violates the (WORD, DOCUMENT) primary key of the inverted index (src/fr/insa/Database.java:44). The resulting SQLException is not caught, so indexing stops before the IDF table is written.
- `parseRequestResultFile` (reading the tab-separated judgement files), `loadStopwords`, the command-line orchestration in `Main`, the database-backed `getNumberOfPertinentDocuments(int)` loop and all console printing are I/O and are not modelled.
- HashMap iteration orders (of a document's terms, the query, the results) are sequence parameters. A `LinkedHashMap` built by the sort keeps the sorted order, and the model returns that order as a sequence.

## Findings

| source | as written | input that shows it | evidently intended | confidence | as-written member | corrected member |
|---|---|---|---|---|---|---|
| src/fr/insa/Parser.java:239 | `1.0/3*length` parses as (1.0/3)·length, so each term of a synonym group weighs length/3 | a synonym group yielding 4 terms gives each of them weight 4/3, more than a primary keyword's 1.0, and heavier groups weigh more | 1/(3·length), so that a group's terms share a third of a primary term's weight | medium, not executed | Requests.AsWrittenSynonymsOutweighKeywords | Requests.IntendedSynonymsWeighAtMostAThird |

The weighting rule is a parameter of the request parser (`Requests.GroupWeighting`). `AsWritten` reproduces the source, and `Intended` is the corrected weight. Every other property of the request parser is proved for both rules.

=== FILE: documents.dfy ===
/** Document indexing of the parser: tag-weighted term frequencies
    (`cleanDoc`), n-gram scaling and the inverted-index rows
    (`parseDocument`), and the document-frequency table (`updateIdf`,
    `parseHtmlDocuments`). */
module Documents {
  import opened Text
  import opened NGrams
  import opened Html
  import opened Outcomes

  /** Tags whose score differs from 1 when tag weighting is on. */
  const WeightedTags: set<string> :=
    {"title", "h2", "b", "h3", "h4", "h1", "strong",
     "script", "noscript", "img", "link", "meta", "style", "form"}

  /** Tags whose text counts for nothing when tag weighting is on. */
  const ExcludedTags: set<string> := {"script", "noscript", "img", "link", "meta", "style", "form"}

  /** The structural score of an element's text. */
  function TagScore(tagWeight: bool, tag: string): (r: real)
    ensures 0.0 <= r <= 3.15
    ensures !tagWeight || tag !in WeightedTags ==> r == 1.0
    ensures tagWeight && tag in ExcludedTags ==> r == 0.0
    ensures tagWeight && tag in WeightedTags - ExcludedTags ==> r >= 1.8
  {
    if !tagWeight then 1.0
    else if tag == "title" then 3.15
    else if tag == "h2" || tag == "b" then 3.15
    else if tag == "h3" then 2.0
    else if tag == "h4" then 1.8
    else if tag == "h1" then 2.9
    else if tag == "strong" then 2.95
    else if tag == "li" then 1.0
    else if tag == "p" then 1.0
    else if tag == "a" then 1.0
    else if tag in ExcludedTags then 0.0
    else 1.0
  }

  /** The terms of one element: the unigrams and bigrams of its cleaned own text. */
  function ElementTerms(lex: Lexicon, e: Element): seq<string>
  {
    Terms(Clean(lex, e.ownText))
  }

  /** A scored term list: the score of an element and the terms of its text. */
  type Group = (real, seq<string>)

  /** The score and the terms of every element, in order. */
  function ElementGroups(lex: Lexicon, tagWeight: bool, elements: seq<Element>): (r: seq<Group>)
    ensures |r| == |elements|
  {
    seq(|elements|, i requires 0 <= i < |elements| =>
      (TagScore(tagWeight, elements[i].tagName), ElementTerms(lex, elements[i])))
  }

  /** The weight found in `freq`, or 0 for a missing term. */
  function Get(freq: map<string, real>, t: string): real
  {
    if t in freq then freq[t] else 0.0
  }

  /** The number of occurrences of `t` in `terms`. */
  function Count(terms: seq<string>, t: string): nat
  {
    if |terms| == 0 then 0
    else (if terms[0] == t then 1 else 0) + Count(terms[1..], t)
  }

  lemma {:induction false} AbsentCountsZero(terms: seq<string>, t: string)
    requires t !in terms
    ensures Count(terms, t) == 0
  {
    if |terms| > 0 {
      AbsentCountsZero(terms[1..], t);
    }
  }

  /** The weight `score` adds to `t` for every occurrence in `terms`. */
  function Contribution(terms: seq<string>, t: string, score: real): real
  {
    if |terms| == 0 then 0.0
    else (if terms[0] == t then score else 0.0) + Contribution(terms[1..], t, score)
  }

  /** Adding the score once per occurrence is the score times the count. */
  lemma {:induction false} ContributionIsScaledCount(terms: seq<string>, t: string, score: real)
    ensures Contribution(terms, t, score) == score * Count(terms, t) as real
  {
    if |terms| > 0 {
      ContributionIsScaledCount(terms[1..], t, score);
      var n := Count(terms[1..], t);
      if terms[0] == t {
        assert Count(terms, t) == n + 1;
        assert score * (n + 1) as real == score + score * n as real;
      }
    }
  }

  /** Adds `score` to the weight of every term of the list, creating missing
      entries: the inner loop of `cleanDoc`. */
  function Accumulate(freq: map<string, real>, terms: seq<string>, score: real): (r: map<string, real>)
    ensures forall t :: t in r <==> t in freq || t in terms
    ensures forall t :: Get(r, t) == Get(freq, t) + Contribution(terms, t, score)
    decreases |terms|
  {
    if |terms| == 0 then freq
    else
      var t0 := terms[0];
      Accumulate(freq[t0 := Get(freq, t0) + score], terms[1..], score)
  }

  /** Term `t` is among the terms of some group. */
  ghost predicate Occurs(groups: seq<Group>, t: string)
  {
    exists i :: 0 <= i < |groups| && t in groups[i].1
  }

  /** The reference weight of a term: every occurrence of the term in a
      group adds that group's score. */
  function Weight(groups: seq<Group>, t: string): real
  {
    if |groups| == 0 then 0.0
    else Contribution(groups[0].1, t, groups[0].0) + Weight(groups[1..], t)
  }

  /** The same weight as a sum of products: over all groups, the group's
      score times the number of occurrences of the term in it. */
  function ScoredCount(groups: seq<Group>, t: string): real
  {
    if |groups| == 0 then 0.0
    else groups[0].0 * Count(groups[0].1, t) as real + ScoredCount(groups[1..], t)
  }

  lemma {:induction false} WeightIsScoredCount(groups: seq<Group>, t: string)
    ensures Weight(groups, t) == ScoredCount(groups, t)
  {
    if |groups| > 0 {
      ContributionIsScaledCount(groups[0].1, t, groups[0].0);
      WeightIsScoredCount(groups[1..], t);
    }
  }

  lemma OccursCons(groups: seq<Group>, t: string)
    requires |groups| > 0
    ensures Occurs(groups, t) <==> t in groups[0].1 || Occurs(groups[1..], t)
  {
    if Occurs(groups, t) && t !in groups[0].1 {
      var i :| 0 <= i < |groups| && t in groups[i].1;
      assert groups[1..][i - 1] == groups[i];
    }
    if Occurs(groups[1..], t) {
      var i :| 0 <= i < |groups[1..]| && t in groups[1..][i].1;
      assert groups[i + 1] == groups[1..][i];
    }
  }

  /** The outer loop of `cleanDoc` over the elements. */
  function AccumulateGroups(freq: map<string, real>, groups: seq<Group>): (r: map<string, real>)
    ensures forall t :: t in r <==> t in freq || Occurs(groups, t)
    ensures forall t :: Get(r, t) == Get(freq, t) + Weight(groups, t)
    decreases |groups|
  {
    if |groups| == 0 then freq
    else
      var next := Accumulate(freq, groups[0].1, groups[0].0);
      var r := AccumulateGroups(next, groups[1..]);
      assert forall t :: Occurs(groups, t) <==> t in groups[0].1 || Occurs(groups[1..], t) by {
        forall t ensures Occurs(groups, t) <==> t in groups[0].1 || Occurs(groups[1..], t) {
          OccursCons(groups, t);
        }
      }
      r
  }

  /** `cleanDoc`: the term weights of a page. A term is a key exactly when
      some element produces it, and its weight is the sum over the elements
      of the element's tag score times the term's number of occurrences in
      the element's terms. */
  function CleanDoc(lex: Lexicon, tagWeight: bool, elements: seq<Element>): (r: map<string, real>)
    ensures forall t :: t in r <==> Occurs(ElementGroups(lex, tagWeight, elements), t)
    ensures forall t :: t in r ==> r[t] == Weight(ElementGroups(lex, tagWeight, elements), t)
  {
    AccumulateGroups(map[], ElementGroups(lex, tagWeight, elements))
  }

  /** The total number of occurrences of `t` over all groups. */
  function TotalCount(groups: seq<Group>, t: string): nat
  {
    if |groups| == 0 then 0
    else Count(groups[0].1, t) + TotalCount(groups[1..], t)
  }

  /** When every score is 1 a term's weight is its raw number of occurrences. */
  lemma {:induction false} UnitScoresCount(groups: seq<Group>, t: string)
    requires forall i :: 0 <= i < |groups| ==> groups[i].0 == 1.0
    ensures Weight(groups, t) == TotalCount(groups, t) as real
  {
    if |groups| > 0 {
      ContributionIsScaledCount(groups[0].1, t, groups[0].0);
      UnitScoresCount(groups[1..], t);
    }
  }

  /** Without tag weighting, `cleanDoc` gives every term its number of
      occurrences over all elements. */
  lemma {:induction false} UnweightedIsCount(lex: Lexicon, elements: seq<Element>)
    ensures forall t :: t in CleanDoc(lex, false, elements) ==>
              CleanDoc(lex, false, elements)[t] == TotalCount(ElementGroups(lex, false, elements), t) as real
  {
    forall t {
      UnitScoresCount(ElementGroups(lex, false, elements), t);
    }
  }

  /** Weights add up group by group. */
  lemma {:induction false} WeightAppend(groups: seq<Group>, g: Group, t: string)
    ensures Weight(groups + [g], t) == Weight(groups, t) + g.0 * Count(g.1, t) as real
    decreases |groups|
  {
    if |groups| == 0 {
      assert groups + [g] == [g];
      assert [g][1..] == [];
    } else {
      assert (groups + [g])[1..] == groups[1..] + [g];
      WeightAppend(groups[1..], g, t);
    }
    ContributionIsScaledCount(g.1, t, g.0);
  }

  /** A term that no group produces has weight 0. */
  lemma {:induction false} NoOccurrenceNoWeight(groups: seq<Group>, t: string)
    requires !Occurs(groups, t)
    ensures Weight(groups, t) == 0.0
  {
    if |groups| > 0 {
      OccursCons(groups, t);
      AbsentCountsZero(groups[0].1, t);
      ContributionIsScaledCount(groups[0].1, t, groups[0].0);
      NoOccurrenceNoWeight(groups[1..], t);
    }
  }

  /** An element with an excluded tag (script, style, ...) changes no weight,
      yet its terms still become keys, with weight 0 when new. */
  lemma {:induction false} ExcludedElementOnlyAddsKeys(lex: Lexicon, elements: seq<Element>, e: Element)
    requires e.tagName in ExcludedTags
    ensures forall t :: t in CleanDoc(lex, true, elements + [e]) <==>
              t in CleanDoc(lex, true, elements) || t in ElementTerms(lex, e)
    ensures forall t :: t in CleanDoc(lex, true, elements) ==>
              CleanDoc(lex, true, elements + [e])[t] == CleanDoc(lex, true, elements)[t]
    ensures forall t :: t in ElementTerms(lex, e) && t !in CleanDoc(lex, true, elements) ==>
              CleanDoc(lex, true, elements + [e])[t] == 0.0
  {
    var gs := ElementGroups(lex, true, elements);
    var g := (0.0, ElementTerms(lex, e));
    assert ElementGroups(lex, true, elements + [e]) == gs + [g];
    forall t
      ensures Occurs(gs + [g], t) <==> Occurs(gs, t) || t in g.1
      ensures Weight(gs + [g], t) == Weight(gs, t)
      ensures !Occurs(gs, t) ==> Weight(gs, t) == 0.0
    {
      ZeroGroupAppend(gs, g, t);
    }
  }

  /** Appending a zero-scored group adds its terms as occurring terms and
      changes no weight. */
  lemma ZeroGroupAppend(gs: seq<Group>, g: Group, t: string)
    requires g.0 == 0.0
    ensures Occurs(gs + [g], t) <==> Occurs(gs, t) || t in g.1
    ensures Weight(gs + [g], t) == Weight(gs, t)
    ensures !Occurs(gs, t) ==> Weight(gs, t) == 0.0
  {
    WeightAppend(gs, g, t);
    if Occurs(gs + [g], t) {
      var i :| 0 <= i < |gs + [g]| && t in (gs + [g])[i].1;
      if i < |gs| {
        assert (gs + [g])[i] == gs[i];
      }
    }
    if Occurs(gs, t) {
      var i :| 0 <= i < |gs| && t in gs[i].1;
      assert (gs + [g])[i] == gs[i];
    } else {
      NoOccurrenceNoWeight(gs, t);
    }
    if t in g.1 {
      assert (gs + [g])[|gs|] == g;
    }
  }

  /** A weight multiplied by the n-gram factor. */
  function Scaled(v: real, w: real): real
  {
    v * w
  }

  /** `parseDocument`'s scaling: a term containing a blank (an n-gram) is
      stored with its weight times `weightNgram`, any other term unchanged. */
  function ScaleNGrams(freq: map<string, real>, weightNgram: real): map<string, real>
  {
    map t | t in freq :: if ' ' in t then Scaled(freq[t], weightNgram) else freq[t]
  }

  /** The inverted-index rows `parseDocument` writes for one page: every term
      of its head and body elements with its stored weight. */
  function DocumentTerms(lex: Lexicon, tagWeight: bool, weightNgram: real, page: Page): map<string, real>
  {
    ScaleNGrams(CleanDoc(lex, tagWeight, page.head + page.body), weightNgram)
  }

  /** Proof step for `DocumentTermWeights`: the scaling, one term at a time.
      It multiplies exactly the terms containing a blank. */
  lemma ScaleNGramsWeights(freq: map<string, real>, weightNgram: real, t: string, v: real)
    requires t in freq && freq[t] == v
    ensures t in ScaleNGrams(freq, weightNgram)
    ensures ' ' !in t ==> ScaleNGrams(freq, weightNgram)[t] == v
    ensures ' ' in t ==> ScaleNGrams(freq, weightNgram)[t] == Scaled(v, weightNgram)
  {
  }

  /** Scaling a table that holds every term of the groups with its weight:
      the words of one group keep their weight. */
  lemma ScaledWordWeights(freq: map<string, real>, gs: seq<Group>, words: seq<string>, i: nat, weightNgram: real)
    requires i < |gs| && gs[i].1 == Terms(words)
    requires forall j :: 0 <= j < |words| ==> ' ' !in words[j]
    requires forall t :: Occurs(gs, t) ==> t in freq && freq[t] == Weight(gs, t)
    ensures forall j :: 0 <= j < |words| ==>
              words[j] in ScaleNGrams(freq, weightNgram)
              && ScaleNGrams(freq, weightNgram)[words[j]] == Weight(gs, words[j])
  {
    WordsAndBigramsAreTerms(words);
    forall j | 0 <= j < |words|
      ensures words[j] in ScaleNGrams(freq, weightNgram)
              && ScaleNGrams(freq, weightNgram)[words[j]] == Weight(gs, words[j])
    {
      assert Occurs(gs, words[j]);
      ScaleNGramsWeights(freq, weightNgram, words[j], Weight(gs, words[j]));
    }
  }

  /** A bigram contains a blank. */
  lemma BigramHasBlank(words: seq<string>, j: nat)
    requires j + 1 < |words|
    ensures ' ' in Bigram(words, j)
  {
    assert Bigram(words, j)[|words[j]|] == ' ';
  }

  /** ... and its bigrams have their weight multiplied by `weightNgram`. */
  lemma ScaledBigramWeights(freq: map<string, real>, gs: seq<Group>, words: seq<string>, weightNgram: real)
    requires forall j :: 0 <= j < |words| - 1 ==>
               Bigram(words, j) in freq && freq[Bigram(words, j)] == Weight(gs, Bigram(words, j))
    ensures forall j :: 0 <= j < |words| - 1 ==>
              Bigram(words, j) in ScaleNGrams(freq, weightNgram)
              && ScaleNGrams(freq, weightNgram)[Bigram(words, j)] == Scaled(Weight(gs, Bigram(words, j)), weightNgram)
  {
    forall j | 0 <= j < |words| - 1
      ensures ' ' in Bigram(words, j)
    {
      BigramHasBlank(words, j);
    }
  }

  /** The stored weight of a page's term is its tag-weighted number of
      occurrences; a bigram's is multiplied by `weightNgram`, a word's is not. */
  lemma {:induction false} DocumentTermWeights(lex: Lexicon, tagWeight: bool, weightNgram: real, page: Page, i: nat)
    requires lex.Valid()
    requires i < |page.head + page.body|
    ensures var es := page.head + page.body;
            var words := Clean(lex, es[i].ownText);
            var stored := DocumentTerms(lex, tagWeight, weightNgram, page);
            var gs := ElementGroups(lex, tagWeight, es);
            && (forall j :: 0 <= j < |words| ==>
                  words[j] in stored && stored[words[j]] == Weight(gs, words[j]))
            && (forall j :: 0 <= j < |words| - 1 ==>
                  Bigram(words, j) in stored && stored[Bigram(words, j)] == Scaled(Weight(gs, Bigram(words, j)), weightNgram))
  {
    var es := page.head + page.body;
    var words := Clean(lex, es[i].ownText);
    var gs := ElementGroups(lex, tagWeight, es);
    var freq := CleanDoc(lex, tagWeight, es);
    assert gs[i].1 == Terms(words);
    ScaledWordWeights(freq, gs, words, i, weightNgram);
    WordsAndBigramsAreTerms(words);
    forall j | 0 <= j < |words| - 1
      ensures Bigram(words, j) in freq && freq[Bigram(words, j)] == Weight(gs, Bigram(words, j))
    {
      assert Bigram(words, j) in gs[i].1;
    }
    ScaledBigramWeights(freq, gs, words, weightNgram);
  }

  // ---------------------------------------------------------------------------
  // The collection: inverted index and document frequencies

  /** A file of the corpus directory: parsed, or unreadable (`IOException`,
      skipped but still counted). */
  datatype Source = Parsed(page: Page) | Unreadable

  /** What indexing produces: document -> (term -> stored weight), term ->
      number of documents, and the number of files seen. */
  datatype Collection = Collection(index: map<string, map<string, real>>, idfs: map<string, nat>, size: nat)

  /** `updateIdf` called once for every distinct term of one document. */
  function AddDocumentFrequencies(idfs: map<string, nat>, terms: set<string>): map<string, nat>
  {
    map t | t in idfs.Keys + terms :: (if t in idfs then idfs[t] else 0) + (if t in terms then 1 else 0)
  }

  /** Records one page's terms: a page without terms writes no
      inverted-index row, so it never appears in the index read back. */
  function AddDocument(c: Collection, name: string, terms: map<string, real>): Collection
  {
    Collection(
      if terms == map[] then c.index else c.index[name := terms],
      AddDocumentFrequencies(c.idfs, terms.Keys),
      c.size + 1)
  }

  /** What one corpus file contributes: the term map of a parsed page, or
      nothing for an unreadable file. */
  function FileTerms(lex: Lexicon, tagWeight: bool, weightNgram: real, src: Source): Option<map<string, real>>
  {
    match src
    case Unreadable => None
    case Parsed(page) => Some(DocumentTerms(lex, tagWeight, weightNgram, page))
  }

  /** The loop of `parseHtmlDocuments` over the files, in directory order;
      every file is counted, readable or not. */
  function IndexFiles(c: Collection, files: seq<(string, Option<map<string, real>>)>): Collection
    decreases |files|
  {
    if |files| == 0 then c
    else
      var next := match files[0].1
        case None => c.(size := c.size + 1)
        case Some(terms) => AddDocument(c, files[0].0, terms);
      IndexFiles(next, files[1..])
  }

  /** `parseHtmlDocuments` followed by reading the tables back. */
  function ParseHtmlDocuments(lex: Lexicon, tagWeight: bool, weightNgram: real, files: seq<(string, Source)>): Collection
  {
    IndexFiles(Collection(map[], map[], 0), Extract(lex, tagWeight, weightNgram, files))
  }

  function Extract(lex: Lexicon, tagWeight: bool, weightNgram: real, files: seq<(string, Source)>): (r: seq<(string, Option<map<string, real>>)>)
    ensures |r| == |files|
    ensures forall i :: 0 <= i < |files| ==> r[i].0 == files[i].0
  {
    seq(|files|, i requires 0 <= i < |files| => (files[i].0, FileTerms(lex, tagWeight, weightNgram, files[i].1)))
  }

  /** The documents whose terms include `t`. */
  ghost function DocsWith(index: map<string, map<string, real>>, t: string): set<string>
  {
    set d | d in index && t in index[d]
  }

  /** The document-frequency table agrees with the index. */
  ghost predicate Consistent(c: Collection)
  {
    && (forall t :: t in c.idfs <==> DocsWith(c.index, t) != {})
    && (forall t :: t in c.idfs ==> c.idfs[t] == |DocsWith(c.index, t)|)
  }

  predicate DistinctNames<T>(files: seq<(string, T)>)
  {
    forall i, j :: 0 <= i < j < |files| ==> files[i].0 != files[j].0
  }

  /** The documents holding `t` after one more document is recorded. */
  lemma DocsWithAdded(c: Collection, name: string, terms: map<string, real>, t: string)
    requires name !in c.index
    ensures DocsWith(AddDocument(c, name, terms).index, t) == DocsWith(c.index, t) + (if t in terms then {name} else {})
  {
    if terms == map[] {
      assert t !in terms;
    } else {
      var after := DocsWith(c.index[name := terms], t);
      forall d | d in after
        ensures d in DocsWith(c.index, t) + (if t in terms then {name} else {})
      {
        if d != name {
          assert d in c.index && t in c.index[d];
        }
      }
    }
  }

  /** One more count for a set that gains a member it did not have. */
  lemma AddedMemberCount(s: set<string>, name: string)
    requires name !in s
    ensures |s + {name}| == |s| + 1
  {
  }

  lemma AddDocumentConsistent(c: Collection, name: string, terms: map<string, real>)
    requires Consistent(c)
    requires name !in c.index
    ensures Consistent(AddDocument(c, name, terms))
  {
    var c' := AddDocument(c, name, terms);
    forall t
      ensures t in c'.idfs <==> DocsWith(c'.index, t) != {}
      ensures t in c'.idfs ==> c'.idfs[t] == |DocsWith(c'.index, t)|
    {
      DocsWithAdded(c, name, terms, t);
      if t in terms {
        assert name !in DocsWith(c.index, t);
        AddedMemberCount(DocsWith(c.index, t), name);
        assert name in DocsWith(c'.index, t);
      }
    }
  }

  /** Folding the files keeps the table consistent, counts every file, and
      indexes exactly the named pages that have terms. */
  lemma {:induction false} IndexFilesConsistent(c: Collection, files: seq<(string, Option<map<string, real>>)>)
    requires Consistent(c)
    requires DistinctNames(files)
    requires forall i :: 0 <= i < |files| ==> files[i].0 !in c.index
    decreases |files|
    ensures Consistent(IndexFiles(c, files))
    ensures IndexFiles(c, files).size == c.size + |files|
    ensures forall d :: d in IndexFiles(c, files).index ==>
              d in c.index || exists i :: 0 <= i < |files| && files[i].0 == d
    ensures forall d :: d in c.index ==> d in IndexFiles(c, files).index && IndexFiles(c, files).index[d] == c.index[d]
    ensures forall i :: 0 <= i < |files| && files[i].1.Some? && files[i].1.value != map[] ==>
              files[i].0 in IndexFiles(c, files).index && IndexFiles(c, files).index[files[i].0] == files[i].1.value
    ensures forall i :: 0 <= i < |files| && (files[i].1.None? || files[i].1.value == map[]) ==>
              files[i].0 !in IndexFiles(c, files).index
  {
    if |files| > 0 {
      var next := match files[0].1
        case None => c.(size := c.size + 1)
        case Some(terms) => AddDocument(c, files[0].0, terms);
      if files[0].1.Some? {
        AddDocumentConsistent(c, files[0].0, files[0].1.value);
      }
      assert forall i :: 0 <= i < |files[1..]| ==> files[1..][i] == files[i + 1];
      IndexFilesConsistent(next, files[1..]);
      var r := IndexFiles(c, files);
      assert r == IndexFiles(next, files[1..]);
      forall d | d in r.index
        ensures d in c.index || exists i :: 0 <= i < |files| && files[i].0 == d
      {
        if d !in c.index && d !in next.index {
          var i :| 0 <= i < |files[1..]| && files[1..][i].0 == d;
          assert files[i + 1].0 == d;
        }
      }
    }
  }

  /** After indexing a corpus with distinct file names: every term's
      document frequency is the number of indexed documents containing it,
      the table lists exactly the terms of the index, the document count
      includes unreadable files, and each readable page with terms is
      indexed under its name with the weights `parseDocument` stores. */
  lemma {:induction false} DocumentFrequenciesCountDocuments(lex: Lexicon, tagWeight: bool, weightNgram: real, files: seq<(string, Source)>)
    requires DistinctNames(files)
    ensures var c := ParseHtmlDocuments(lex, tagWeight, weightNgram, files);
            && c.size == |files|
            && (forall t :: t in c.idfs <==> exists d :: d in c.index && t in c.index[d])
            && (forall t :: t in c.idfs ==> c.idfs[t] == |set d | d in c.index && t in c.index[d]|)
            && (forall d :: d in c.index ==> exists i :: 0 <= i < |files| && files[i].0 == d && files[i].1.Parsed?)
            && (forall i :: 0 <= i < |files| && files[i].1.Parsed? ==>
                  var terms := DocumentTerms(lex, tagWeight, weightNgram, files[i].1.page);
                  terms != map[] ==> files[i].0 in c.index && c.index[files[i].0] == terms)
  {
    var ex := Extract(lex, tagWeight, weightNgram, files);
    assert DistinctNames(ex);
    IndexFilesConsistent(Collection(map[], map[], 0), ex);
    var c := ParseHtmlDocuments(lex, tagWeight, weightNgram, files);
    assert c == IndexFiles(Collection(map[], map[], 0), ex);
    ConsistentCounts(c);
    IndexedFiles(lex, tagWeight, weightNgram, files, ex, c.index);
  }

  /** Reads the index built from the extracted files back in terms of the
      files themselves. */
  lemma IndexedFiles(lex: Lexicon, tagWeight: bool, weightNgram: real, files: seq<(string, Source)>,
                     ex: seq<(string, Option<map<string, real>>)>, index: map<string, map<string, real>>)
    requires ex == Extract(lex, tagWeight, weightNgram, files)
    requires forall d :: d in index ==> exists i :: 0 <= i < |ex| && ex[i].0 == d
    requires forall i :: 0 <= i < |ex| && ex[i].1.Some? && ex[i].1.value != map[] ==>
               ex[i].0 in index && index[ex[i].0] == ex[i].1.value
    requires forall i :: 0 <= i < |ex| && (ex[i].1.None? || ex[i].1.value == map[]) ==> ex[i].0 !in index
    ensures forall d :: d in index ==> exists i :: 0 <= i < |files| && files[i].0 == d && files[i].1.Parsed?
    ensures forall i :: 0 <= i < |files| && files[i].1.Parsed? ==>
              var terms := DocumentTerms(lex, tagWeight, weightNgram, files[i].1.page);
              terms != map[] ==> files[i].0 in index && index[files[i].0] == terms
  {
    forall d | d in index
      ensures exists i :: 0 <= i < |files| && files[i].0 == d && files[i].1.Parsed?
    {
      var i :| 0 <= i < |ex| && ex[i].0 == d;
      assert ex[i].1.Some?;
    }
    forall i | 0 <= i < |files| && files[i].1.Parsed?
      ensures var terms := DocumentTerms(lex, tagWeight, weightNgram, files[i].1.page);
              terms != map[] ==> files[i].0 in index && index[files[i].0] == terms
    {
      assert ex[i].1 == Some(DocumentTerms(lex, tagWeight, weightNgram, files[i].1.page));
    }
  }

  /** A consistent table, spelled out over the index. */
  lemma ConsistentCounts(c: Collection)
    requires Consistent(c)
    ensures forall t :: t in c.idfs <==> exists d :: d in c.index && t in c.index[d]
    ensures forall t :: t in c.idfs ==> c.idfs[t] == |set d | d in c.index && t in c.index[d]|
  {
    forall t
      ensures t in c.idfs <==> exists d :: d in c.index && t in c.index[d]
    {
      forall d | d in c.index && t in c.index[d]
        ensures t in c.idfs
      {
        assert d in DocsWith(c.index, t);
      }
      if t in c.idfs {
        var d :| d in DocsWith(c.index, t);
      }
    }
  }
}

=== FILE: html.dfy ===
/** What the HTML parser hands to the indexer and to the request reader. */
module Html {

  /** One element of a parsed page: its tag name and its own text (the text
      directly inside it, without that of child elements). */
  datatype Element = Element(tagName: string, ownText: string)

  /** A parsed page: every element of its head, then of its body, in
      document order. */
  datatype Page = Page(head: seq<Element>, body: seq<Element>)
}

=== FILE: metrics.dfy ===
/** Evaluation of a ranking against the relevance judgements: relevant
    documents in the first results (`getNumberOfPertinentDocuments`),
    precision and recall with their means (`printPrecision`,
    `printRecall`), and interpolated precision at a recall level
    (`getPrecisionForRecall`, `getInterpolatedPrecisionRecallCurvePoints`). */
module Metrics {
  import opened Outcomes
  import opened Sorting

  /** How many leading entries the counting loop looks at: it stops when
      its position equals `atResult`, which never happens for a negative
      bound. */
  function Considered(n: nat, atResult: int): (r: nat)
    ensures r <= n
    ensures atResult >= 0 ==> r <= atResult
  {
    if 0 <= atResult < n then atResult else n
  }

  /** The number of relevant documents among the first `k` entries. */
  function Found(ranked: seq<Entry>, relevant: seq<string>, k: nat): (r: nat)
    requires k <= |ranked|
    ensures r <= k
  {
    if k == 0 then 0
    else Found(ranked, relevant, k - 1) + (if ranked[k - 1].0 in relevant then 1 else 0)
  }

  /** `getNumberOfPertinentDocuments`: walks the ranking, counting the
      relevant documents, until its position reaches `atResult`. */
  method NumberOfPertinentDocuments(ranked: seq<Entry>, relevant: seq<string>, atResult: int) returns (count: nat)
    ensures count == Found(ranked, relevant, Considered(|ranked|, atResult))
  {
    var i := 0;
    count := 0;
    while i < |ranked|
      invariant 0 <= i <= |ranked|
      invariant atResult >= 0 ==> i <= atResult
      invariant count == Found(ranked, relevant, i)
    {
      if i == atResult {
        break;
      }
      if ranked[i].0 in relevant {
        count := count + 1;
      }
      i := i + 1;
    }
  }

  /** Looking further down the ranking never finds fewer relevant documents. */
  lemma {:induction false} FoundMonotone(ranked: seq<Entry>, relevant: seq<string>, j: nat, k: nat)
    requires j <= k <= |ranked|
    ensures Found(ranked, relevant, j) <= Found(ranked, relevant, k)
    decreases k - j
  {
    if j < k {
      FoundMonotone(ranked, relevant, j, k - 1);
    }
  }

  /** The relevant documents among the first `k` entries. */
  ghost function FoundSet(ranked: seq<Entry>, relevant: seq<string>, k: nat): set<string>
    requires k <= |ranked|
  {
    set i | 0 <= i < k && ranked[i].0 in relevant :: ranked[i].0
  }

  /** With distinct documents, the count is the number of distinct relevant
      documents found. */
  lemma {:induction false} FoundCountsDocuments(ranked: seq<Entry>, relevant: seq<string>, k: nat)
    requires k <= |ranked| && DistinctDocuments(ranked)
    ensures Found(ranked, relevant, k) == |FoundSet(ranked, relevant, k)|
  {
    if k > 0 {
      FoundCountsDocuments(ranked, relevant, k - 1);
      var d := ranked[k - 1].0;
      if d in relevant {
        assert FoundSet(ranked, relevant, k) == FoundSet(ranked, relevant, k - 1) + {d};
        assert d !in FoundSet(ranked, relevant, k - 1);
      } else {
        assert FoundSet(ranked, relevant, k) == FoundSet(ranked, relevant, k - 1);
      }
    } else {
      assert FoundSet(ranked, relevant, k) == {};
    }
  }

  /** The distinct elements of a list. */
  ghost function Members(xs: seq<string>): set<string>
  {
    set x | x in xs
  }

  /** A list has at most as many distinct elements as entries. */
  lemma {:induction false} MembersAtMostLength(xs: seq<string>)
    ensures |Members(xs)| <= |xs|
  {
    if |xs| > 0 {
      var init := xs[..|xs| - 1];
      MembersAtMostLength(init);
      assert xs == init + [xs[|xs| - 1]];
      assert Members(xs) == Members(init) + {xs[|xs| - 1]};
    } else {
      assert Members(xs) == {};
    }
  }

  /** A subset is no larger. */
  lemma {:induction false} SubsetNoLarger(a: set<string>, b: set<string>)
    requires a <= b
    ensures |a| <= |b|
    decreases |a|
  {
    if a != {} {
      var x :| x in a;
      SubsetNoLarger(a - {x}, b - {x});
    }
  }

  /** The count never exceeds the number of judged-relevant documents. */
  lemma FoundAtMostRelevant(ranked: seq<Entry>, relevant: seq<string>, k: nat)
    requires k <= |ranked| && DistinctDocuments(ranked)
    ensures Found(ranked, relevant, k) <= |relevant|
  {
    FoundCountsDocuments(ranked, relevant, k);
    MembersAtMostLength(relevant);
    assert FoundSet(ranked, relevant, k) <= Members(relevant);
    SubsetNoLarger(FoundSet(ranked, relevant, k), Members(relevant));
  }

  // ---------------------------------------------------------------------------
  // Precision, recall and their means

  /** A ratio, undefined when the floating-point division would give an
      infinity or a NaN. */
  function Ratio(count: nat, denominator: int): (r: Option<real>)
    ensures r.None? <==> denominator == 0
    ensures denominator > 0 ==> r.Some? && r.value >= 0.0
    ensures denominator > 0 && count <= denominator ==> r.Some? && r.value <= 1.0
  {
    if denominator == 0 then None else Some(count as real / denominator as real)
  }

  /** Precision at `atPrecision`: the count over the bound. */
  function Precision(count: nat, atPrecision: int): Option<real>
  {
    Ratio(count, atPrecision)
  }

  /** Recall: the count over the number of judged-relevant documents. */
  function Recall(count: nat, relevant: seq<string>): Option<real>
  {
    Ratio(count, |relevant|)
  }

  /** Precision of a ranking at a positive bound lies in [0, 1]. */
  lemma PrecisionInUnitRange(ranked: seq<Entry>, relevant: seq<string>, atPrecision: int)
    requires atPrecision > 0
    ensures var p := Precision(Found(ranked, relevant, Considered(|ranked|, atPrecision)), atPrecision);
            p.Some? && 0.0 <= p.value <= 1.0
  {
  }

  /** Recall of a ranking with distinct documents lies in [0, 1] when some
      document is judged relevant, and is undefined otherwise. */
  lemma {:induction false} RecallInUnitRange(ranked: seq<Entry>, relevant: seq<string>, atRecall: int)
    requires DistinctDocuments(ranked)
    ensures var r := Recall(Found(ranked, relevant, Considered(|ranked|, atRecall)), relevant);
            (r.Some? <==> |relevant| > 0) && (r.Some? ==> 0.0 <= r.value <= 1.0)
  {
    FoundAtMostRelevant(ranked, relevant, Considered(|ranked|, atRecall));
  }

  function Sum(values: seq<real>): real
  {
    if |values| == 0 then 0.0 else Sum(values[..|values| - 1]) + values[|values| - 1]
  }

  /** The mean of the per-request values, undefined without requests. */
  function Mean(values: seq<real>): (r: Option<real>)
    ensures r.None? <==> |values| == 0
  {
    if |values| == 0 then None else Some(Sum(values) / |values| as real)
  }

  lemma {:induction false} SumBounds(values: seq<real>)
    requires forall i :: 0 <= i < |values| ==> 0.0 <= values[i] <= 1.0
    ensures 0.0 <= Sum(values) <= |values| as real
  {
    if |values| > 0 {
      SumBounds(values[..|values| - 1]);
    }
  }

  /** The mean of values in [0, 1] lies in [0, 1]. */
  lemma MeanInUnitRange(values: seq<real>)
    requires |values| > 0
    requires forall i :: 0 <= i < |values| ==> 0.0 <= values[i] <= 1.0
    ensures 0.0 <= Mean(values).value <= 1.0
  {
    SumBounds(values);
  }

  // ---------------------------------------------------------------------------
  // Interpolated precision

  /** The precision at position `j` (1-based): relevant found over `j`. */
  function PrecisionAt(ranked: seq<Entry>, relevant: seq<string>, j: nat): (r: real)
    requires 1 <= j <= |ranked|
    ensures 0.0 <= r <= 1.0
  {
    Found(ranked, relevant, j) as real / j as real
  }

  /** `v` is the interpolated precision for `target`: the largest
      precision over the positions where at least `target` relevant
      documents have been found, or 0 if there is none. */
  ghost predicate IsInterpolated(ranked: seq<Entry>, relevant: seq<string>, target: real, v: real)
  {
    && (forall j :: 1 <= j <= |ranked| && Found(ranked, relevant, j) as real >= target ==> PrecisionAt(ranked, relevant, j) <= v)
    && (v == 0.0 || exists j :: 1 <= j <= |ranked| && Found(ranked, relevant, j) as real >= target && v == PrecisionAt(ranked, relevant, j))
  }

  /** `getPrecisionForRecall`: walks the ranking and keeps the best
      precision among the positions where enough relevant documents have
      been found. */
  method PrecisionForRecall(target: real, ranked: seq<Entry>, relevant: seq<string>) returns (maxPrecision: real)
    ensures 0.0 <= maxPrecision <= 1.0
    ensures IsInterpolated(ranked, relevant, target, maxPrecision)
  {
    var i := 0;
    var found := 0;
    maxPrecision := 0.0;
    while i < |ranked|
      invariant 0 <= i <= |ranked|
      invariant found == Found(ranked, relevant, i)
      invariant 0.0 <= maxPrecision <= 1.0
      invariant forall j :: 1 <= j <= i && Found(ranked, relevant, j) as real >= target ==> PrecisionAt(ranked, relevant, j) <= maxPrecision
      invariant maxPrecision == 0.0 || exists j :: 1 <= j <= i && Found(ranked, relevant, j) as real >= target && maxPrecision == PrecisionAt(ranked, relevant, j)
    {
      if ranked[i].0 in relevant {
        found := found + 1;
      }
      i := i + 1;
      var precision := found as real / i as real;
      assert precision == PrecisionAt(ranked, relevant, i);
      if found as real >= target && maxPrecision < precision {
        maxPrecision := precision;
      }
    }
  }

  /** Asking for more relevant documents never raises the interpolated
      precision. */
  lemma InterpolatedAntitone(ranked: seq<Entry>, relevant: seq<string>, t1: real, t2: real, v1: real, v2: real)
    requires t1 <= t2
    requires 0.0 <= v1 && IsInterpolated(ranked, relevant, t1, v1)
    requires IsInterpolated(ranked, relevant, t2, v2)
    ensures v2 <= v1
  {
  }

  /** A target above the number of relevant documents in the whole ranking
      gives 0. */
  lemma UnreachableTargetGivesZero(ranked: seq<Entry>, relevant: seq<string>, target: real, v: real)
    requires target > Found(ranked, relevant, |ranked|) as real
    requires IsInterpolated(ranked, relevant, target, v)
    ensures v == 0.0
  {
    forall j | 1 <= j <= |ranked|
      ensures Found(ranked, relevant, j) as real < target
    {
      FoundMonotone(ranked, relevant, j, |ranked|);
    }
  }

  /** The number of relevant documents to find for a recall level. */
  function ToFind(relevant: seq<string>, recall: real): real
  {
    |relevant| as real * recall
  }

  /** A higher recall level asks for at least as many documents. */
  lemma ToFindMonotone(relevant: seq<string>, r1: real, r2: real)
    requires r1 <= r2
    ensures ToFind(relevant, r1) <= ToFind(relevant, r2)
  {
  }

  /** The precision of each recall level: the level times the number of
      judged-relevant documents is the number to find. */
  method CurvePoints(recalls: seq<real>, ranked: seq<Entry>, relevant: seq<string>) returns (points: seq<real>)
    ensures |points| == |recalls|
    ensures forall k :: 0 <= k < |recalls| ==>
              0.0 <= points[k] <= 1.0 && IsInterpolated(ranked, relevant, ToFind(relevant, recalls[k]), points[k])
  {
    points := [];
    for k := 0 to |recalls|
      invariant |points| == k
      invariant forall m :: 0 <= m < k ==>
                  0.0 <= points[m] <= 1.0 && IsInterpolated(ranked, relevant, ToFind(relevant, recalls[m]), points[m])
    {
      var p := PrecisionForRecall(ToFind(relevant, recalls[k]), ranked, relevant);
      points := points + [p];
    }
  }

  /** For increasing recall levels the curve never rises. */
  lemma CurveNonIncreasing(recalls: seq<real>, ranked: seq<Entry>, relevant: seq<string>, points: seq<real>, a: nat, b: nat)
    requires |points| == |recalls| && a < |recalls| && b < |recalls| && recalls[a] <= recalls[b]
    requires 0.0 <= points[a] && IsInterpolated(ranked, relevant, ToFind(relevant, recalls[a]), points[a])
    requires IsInterpolated(ranked, relevant, ToFind(relevant, recalls[b]), points[b])
    ensures points[b] <= points[a]
  {
    ToFindMonotone(relevant, recalls[a], recalls[b]);
    InterpolatedAntitone(ranked, relevant, ToFind(relevant, recalls[a]), ToFind(relevant, recalls[b]), points[a], points[b]);
  }
}

=== FILE: ngrams.dfy ===
/** N-gram generation of the parser (`makeNGrams`, `getNGramList`). */
module NGrams {
  import opened Strings

  /** The parser's `ngram` field: unigrams and bigrams are indexed. */
  const MaxN: nat := 2

  /** `makeNGrams(words, n)`: the phrase of `n` consecutive words at every
      start position, joined with single blanks. */
  function MakeNGrams(words: seq<string>, n: nat): (r: seq<string>)
    requires n >= 1
    ensures |r| == if |words| >= n then |words| - n + 1 else 0
    ensures forall i :: 0 <= i < |r| ==> r[i] == Join(words[i..i + n], " ")
    decreases |words|
  {
    if |words| < n then []
    else
      var rest := MakeNGrams(words[1..], n);
      forall i | 0 <= i < |rest|
        ensures rest[i] == Join(words[i + 1..i + 1 + n], " ")
      {
        assert words[1..][i..i + n] == words[i + 1..i + 1 + n];
      }
      [Join(words[..n], " ")] + rest
  }

  /** `getNGramList` for n-grams up to `maxN`: all unigrams, then all
      bigrams, and so on. */
  function NGramList(words: seq<string>, maxN: nat): (r: seq<string>)
    ensures maxN >= 1 ==> |r| >= |words| && r[..|words|] == words
  {
    if maxN == 0 then []
    else
      var shorter := NGramList(words, maxN - 1);
      UnigramsAreWords(words);
      assert maxN == 1 ==> shorter + MakeNGrams(words, maxN) == words;
      assert maxN > 1 ==> (shorter + MakeNGrams(words, maxN))[..|words|] == shorter[..|words|];
      shorter + MakeNGrams(words, maxN)
  }

  /** The terms the parser takes from a list of words. */
  function Terms(words: seq<string>): seq<string>
  {
    NGramList(words, MaxN)
  }

  /** Unigrams are the words themselves. */
  lemma UnigramsAreWords(words: seq<string>)
    ensures MakeNGrams(words, 1) == words
  {
    var r := MakeNGrams(words, 1);
    forall i | 0 <= i < |r|
      ensures r[i] == words[i]
    {
      assert words[i..i + 1] == [words[i]];
    }
  }

  /** The terms of a word list are the words, in order, followed by the
      bigrams, in order: `|words|` unigrams and `|words| - 1` bigrams. */
  lemma TermsShape(words: seq<string>)
    ensures |Terms(words)| == |words| + (if |words| >= 2 then |words| - 1 else 0)
    ensures Terms(words)[..|words|] == words
    ensures forall i :: |words| <= i < |Terms(words)| ==>
              Terms(words)[i] == words[i - |words|] + " " + words[i - |words| + 1]
  {
    UnigramsAreWords(words);
    assert NGramList(words, 1) == [] + MakeNGrams(words, 1);
    var bigrams := MakeNGrams(words, 2);
    assert Terms(words) == words + bigrams;
    forall i | |words| <= i < |Terms(words)|
      ensures Terms(words)[i] == words[i - |words|] + " " + words[i - |words| + 1]
    {
      var k := i - |words|;
      assert bigrams[k] == Join(words[k..k + 2], " ");
      assert words[k..k + 2][1..] == [words[k + 1]];
    }
  }

  /** For words without blanks, a term contains a blank exactly when it is a
      bigram; this is how the indexer recognises n-grams. */
  lemma BlankMarksBigrams(words: seq<string>)
    requires forall i :: 0 <= i < |words| ==> ' ' !in words[i]
    ensures forall i :: 0 <= i < |Terms(words)| ==> (' ' in Terms(words)[i] <==> i >= |words|)
  {
    TermsShape(words);
    forall i | 0 <= i < |Terms(words)|
      ensures ' ' in Terms(words)[i] <==> i >= |words|
    {
      if i >= |words| {
        var k := i - |words|;
        var t := words[k] + " " + words[k + 1];
        assert t[|words[k]|] == ' ';
      } else {
        assert Terms(words)[i] == Terms(words)[..|words|][i] == words[i];
      }
    }
  }

  /** The phrase of the words at `j` and `j + 1`. */
  function Bigram(words: seq<string>, j: nat): string
    requires j + 1 < |words|
  {
    words[j] + " " + words[j + 1]
  }

  /** Every word and every pair of adjacent words is a term. */
  lemma WordsAndBigramsAreTerms(words: seq<string>)
    ensures forall j :: 0 <= j < |words| ==> words[j] in Terms(words)
    ensures forall j :: 0 <= j < |words| - 1 ==> Bigram(words, j) in Terms(words)
  {
    TermsShape(words);
    forall j | 0 <= j < |words|
      ensures words[j] in Terms(words)
    {
      assert Terms(words)[j] == Terms(words)[..|words|][j];
    }
    forall j | 0 <= j < |words| - 1
      ensures Bigram(words, j) in Terms(words)
    {
      assert Terms(words)[|words| + j] == words[j] + " " + words[j + 1];
    }
  }
}

=== FILE: outcomes.dfy ===
/** Failure-carrying values used where the Java code either returns nothing
    meaningful (a NaN ratio) or throws. */
module Outcomes {

  datatype Option<+T> = None | Some(value: T)

  datatype Result<+T, +E> = Success(value: T) | Failure(error: E) {

    predicate IsFailure() {
      Failure?
    }

    function PropagateFailure<U>(): Result<U, E>
      requires Failure?
    {
      Failure(error)
    }

    function Extract(): T
      requires Success?
    {
      value
    }
  }
}

=== FILE: qrels.dfy ===
/** Request ids from relevance-judgement file names (`cleanRequestFilename`):
    the first match of `qrel(Q\d+)` yields its group, "Q" followed by all
    the digits after it; a name without a match is kept as it is. */
module QrelNames {
  import opened Outcomes

  /** The text the pattern requires before the digits. */
  const Prefix: string := "qrelQ"

  /** `\d` without the Unicode flag: an ASCII digit. */
  predicate IsDigit(c: char)
  {
    '0' <= c <= '9'
  }

  /** The pattern matches at position `p`: the prefix followed by at least
      one digit. */
  predicate MatchAt(s: string, p: nat)
  {
    p + |Prefix| < |s| && s[p..p + |Prefix|] == Prefix && IsDigit(s[p + |Prefix|])
  }

  /** The leftmost match at or after `from`, if any (what `find()` does). */
  function FirstMatch(s: string, from: nat): (r: Option<nat>)
    ensures r.Some? ==> from <= r.value && MatchAt(s, r.value)
                        && forall p :: from <= p < r.value ==> !MatchAt(s, p)
    ensures r.None? ==> forall p :: from <= p ==> !MatchAt(s, p)
    decreases |s| - from
  {
    if from + |Prefix| >= |s| then None
    else if MatchAt(s, from) then Some(from)
    else FirstMatch(s, from + 1)
  }

  /** The digits starting at `from`, as many as there are (`\d+` is greedy). */
  function Digits(s: string, from: nat): (r: string)
    requires from <= |s|
    ensures from + |r| <= |s| && s[from..from + |r|] == r
    ensures forall i :: 0 <= i < |r| ==> IsDigit(r[i])
    ensures from + |r| == |s| || !IsDigit(s[from + |r|])
    decreases |s| - from
  {
    if from < |s| && IsDigit(s[from]) then [s[from]] + Digits(s, from + 1) else ""
  }

  /** The request id of a relevance-judgement file name. */
  function CleanRequestFilename(filename: string): (r: string)
    ensures FirstMatch(filename, 0).None? ==> r == filename
    ensures FirstMatch(filename, 0).Some? ==>
              var p := FirstMatch(filename, 0).value;
              |r| >= 2 && r[0] == 'Q' && r[1..] == Digits(filename, p + |Prefix|)
  {
    match FirstMatch(filename, 0)
    case None => filename
    case Some(p) => "Q" + Digits(filename, p + |Prefix|)
  }

  /** The name is kept exactly when the pattern occurs nowhere in it. */
  lemma CleanKeepsOnlyUnmatched(filename: string)
    ensures CleanRequestFilename(filename) == filename <==> forall p: nat :: !MatchAt(filename, p)
  {
    var m := FirstMatch(filename, 0);
    if m.Some? {
      var p := m.value;
      var ds := Digits(filename, p + |Prefix|);
      assert |CleanRequestFilename(filename)| == 1 + |ds| < |filename|;
    }
  }

  /** Otherwise the id is "Q" and the longest digit run after the leftmost
      "qrelQ" that is followed by a digit. */
  lemma {:induction false} CleanTakesLeftmostMatch(filename: string, p: nat)
    requires MatchAt(filename, p)
    requires forall q: nat :: q < p ==> !MatchAt(filename, q)
    ensures CleanRequestFilename(filename) == "Q" + Digits(filename, p + |Prefix|)
  {
    var m := FirstMatch(filename, 0);
    assert m.Some?;
    assert m.value == p;
  }

  /** A name that follows the judgement files' convention gives its request id. */
  lemma ConventionalName()
    ensures CleanRequestFilename("qrelQ12.txt") == "Q12"
    ensures CleanRequestFilename("notes.txt") == "notes.txt"
  {
    var s := "qrelQ12.txt";
    assert MatchAt(s, 0);
    assert Digits(s, 5) == "12" by {
      assert Digits(s, 7) == "";
    }
    var t := "notes.txt";
    assert FirstMatch(t, 0).None?;
  }
}

=== FILE: ranking.dfy ===
/** Scoring the indexed documents against one request (`generateResults`,
    `calculateRequestNorm`, `calculateSimilarity`). The `index` parameters
    hold the inverted index after the evaluator has overwritten each value
    with its TF-IDF weight; that transform itself is not modelled. */
module Ranking {
  import opened Outcomes
  import opened Sorting

  /** The evaluator's switches that this part reads. */
  datatype Flags = Flags(cosinus: bool, jaccard: bool, dice: bool, idfRequest: bool, synonymsWeights: bool)

  /** A request term and its weight. */
  type QueryEntry = (string, real)

  /** The stored weight of a term in a document, 0 when absent (`getOrDefault`). */
  function Stored(freqs: map<string, real>, term: string): real
  {
    if term in freqs then freqs[term] else 0.0
  }

  /** What one request term adds to one document's score: the stored weight,
      times the request weight when `synonymsWeights` is set, times the
      term's document frequency when `idfRequest` is set and the term is
      known. */
  function TermScore(flags: Flags, idfs: map<string, nat>, freqs: map<string, real>, entry: QueryEntry): (r: real)
    ensures entry.0 !in freqs ==> r == 0.0
    ensures !flags.synonymsWeights && (!flags.idfRequest || entry.0 !in idfs) ==> r == Stored(freqs, entry.0)
  {
    var sum := Stored(freqs, entry.0);
    var weighted := if flags.synonymsWeights then sum * entry.1 else sum;
    if flags.idfRequest && entry.0 in idfs then weighted * idfs[entry.0] as real else weighted
  }

  /** The reference score of one document: the sum of its term scores over
      the request's terms. */
  function Dot(flags: Flags, idfs: map<string, nat>, freqs: map<string, real>, query: seq<QueryEntry>): real
  {
    if |query| == 0 then 0.0
    else Dot(flags, idfs, freqs, query[..|query| - 1]) + TermScore(flags, idfs, freqs, query[|query| - 1])
  }

  /** One pass of the inner loop of `generateResults`: every indexed
      document gets the term's score added (and is put in the results if
      it was not there yet). */
  function AddTerm(flags: Flags, idfs: map<string, nat>, index: map<string, map<string, real>>,
                   results: map<string, real>, entry: QueryEntry): (r: map<string, real>)
    ensures r.Keys == results.Keys + index.Keys
  {
    map d | d in results.Keys + index.Keys ::
      (if d in results then results[d] else 0.0)
      + (if d in index then TermScore(flags, idfs, index[d], entry) else 0.0)
  }

  /** `generateResults`: the request's terms in the map's iteration order,
      each added to every indexed document. */
  function GenerateResults(flags: Flags, idfs: map<string, nat>, index: map<string, map<string, real>>,
                           query: seq<QueryEntry>): (r: map<string, real>)
    ensures |query| == 0 ==> r == map[]
    ensures |query| > 0 ==> r.Keys == index.Keys
    ensures forall d :: d in r ==> r[d] == Dot(flags, idfs, index[d], query)
  {
    if |query| == 0 then map[]
    else AddTerm(flags, idfs, index, GenerateResults(flags, idfs, index, query[..|query| - 1]), query[|query| - 1])
  }

  /** A document sharing no term with the request scores 0. */
  lemma {:induction false} DisjointScoresZero(flags: Flags, idfs: map<string, nat>, freqs: map<string, real>, query: seq<QueryEntry>)
    requires forall i :: 0 <= i < |query| ==> query[i].0 !in freqs
    ensures Dot(flags, idfs, freqs, query) == 0.0
  {
    if |query| > 0 {
      DisjointScoresZero(flags, idfs, freqs, query[..|query| - 1]);
    }
  }

  /** The score splits over a split request. */
  lemma {:induction false} DotAppend(flags: Flags, idfs: map<string, nat>, freqs: map<string, real>, a: seq<QueryEntry>, b: seq<QueryEntry>)
    ensures Dot(flags, idfs, freqs, a + b) == Dot(flags, idfs, freqs, a) + Dot(flags, idfs, freqs, b)
    decreases |b|
  {
    if |b| == 0 {
      assert a + b == a;
    } else {
      assert (a + b)[..|a + b| - 1] == a + b[..|b| - 1];
      DotAppend(flags, idfs, freqs, a, b[..|b| - 1]);
    }
  }

  /** Taking one term out of the request removes exactly its score. */
  lemma DotRemove(flags: Flags, idfs: map<string, nat>, freqs: map<string, real>, q: seq<QueryEntry>, k: nat)
    requires k < |q|
    ensures Dot(flags, idfs, freqs, q) == Dot(flags, idfs, freqs, q[..k] + q[k + 1..]) + TermScore(flags, idfs, freqs, q[k])
  {
    assert q == q[..k] + ([q[k]] + q[k + 1..]);
    DotAppend(flags, idfs, freqs, q[..k], [q[k]] + q[k + 1..]);
    DotAppend(flags, idfs, freqs, [q[k]], q[k + 1..]);
    DotAppend(flags, idfs, freqs, q[..k], q[k + 1..]);
    assert [q[k]][..0] == [];
  }

  /** The iteration order of the request's map does not change any score. */
  lemma {:induction false} DotOrderIrrelevant(flags: Flags, idfs: map<string, nat>, freqs: map<string, real>, a: seq<QueryEntry>, b: seq<QueryEntry>)
    requires multiset(a) == multiset(b)
    ensures Dot(flags, idfs, freqs, a) == Dot(flags, idfs, freqs, b)
    decreases |a|
  {
    if |a| == 0 {
      assert |b| == |multiset(b)| == 0;
    } else {
      var x := a[|a| - 1];
      assert a == a[..|a| - 1] + [x];
      assert x in multiset(b);
      var k :| 0 <= k < |b| && b[k] == x;
      var b' := b[..k] + b[k + 1..];
      RemoveOne(b, k);
      RemoveOne(a, |a| - 1);
      assert a[..|a| - 1] + a[|a|..] == a[..|a| - 1];
      DotOrderIrrelevant(flags, idfs, freqs, a[..|a| - 1], b');
      DotRemove(flags, idfs, freqs, b, k);
      DotRemove(flags, idfs, freqs, a, |a| - 1);
    }
  }

  /** Removing the entry at `k` removes one copy of it from the multiset. */
  lemma RemoveOne(q: seq<QueryEntry>, k: nat)
    requires k < |q|
    ensures multiset(q[..k] + q[k + 1..]) == multiset(q) - multiset{q[k]}
  {
    assert q == q[..k] + [q[k]] + q[k + 1..];
    assert multiset(q) == multiset(q[..k]) + multiset{q[k]} + multiset(q[k + 1..]);
  }

  /** Two iteration orders of the same request give the same results. */
  lemma {:induction false} ResultsOrderIrrelevant(flags: Flags, idfs: map<string, nat>, index: map<string, map<string, real>>,
                               a: seq<QueryEntry>, b: seq<QueryEntry>)
    requires multiset(a) == multiset(b)
    ensures GenerateResults(flags, idfs, index, a) == GenerateResults(flags, idfs, index, b)
  {
    var ra := GenerateResults(flags, idfs, index, a);
    var rb := GenerateResults(flags, idfs, index, b);
    assert |a| == |multiset(a)| == |multiset(b)| == |b|;
    forall d | d in ra
      ensures ra[d] == rb[d]
    {
      DotOrderIrrelevant(flags, idfs, index[d], a, b);
    }
  }

  /** Every indexed document that shares no term with a non-empty request
      is in the results with score 0. */
  lemma DisjointDocumentScoresZero(flags: Flags, idfs: map<string, nat>, index: map<string, map<string, real>>,
                                   query: seq<QueryEntry>, d: string)
    requires |query| > 0 && d in index
    requires forall i :: 0 <= i < |query| ==> query[i].0 !in index[d]
    ensures d in GenerateResults(flags, idfs, index, query)
    ensures GenerateResults(flags, idfs, index, query)[d] == 0.0
  {
    DisjointScoresZero(flags, idfs, index[d], query);
  }

  // ---------------------------------------------------------------------------
  // The request's norm

  /** A square. */
  function Squared(v: real): (r: real)
    ensures r >= 0.0
    ensures v == 0.0 ==> r == 0.0
  {
    v * v
  }

  /** The value of one request term in the norm: its document frequency
      when `idfRequest` is set (0 when unknown), else 1, times its weight
      when `synonymsWeights` is set. */
  function NormValue(flags: Flags, idfs: map<string, nat>, entry: QueryEntry): (r: real)
    ensures flags.idfRequest && entry.0 !in idfs ==> r == 0.0
    ensures !flags.idfRequest && !flags.synonymsWeights ==> r == 1.0
  {
    var value := if flags.idfRequest then (if entry.0 in idfs then idfs[entry.0] else 0) as real else 1.0;
    if flags.synonymsWeights then value * entry.1 else value
  }

  /** `calculateRequestNorm`: the sum of the squared term values. */
  function RequestNorm(flags: Flags, idfs: map<string, nat>, query: seq<QueryEntry>): (r: real)
    ensures r >= 0.0
    ensures !flags.idfRequest && !flags.synonymsWeights ==> r == |query| as real
  {
    if |query| == 0 then 0.0
    else RequestNorm(flags, idfs, query[..|query| - 1]) + Squared(NormValue(flags, idfs, query[|query| - 1]))
  }

  /** Under `idfRequest`, the terms no document contains add nothing to
      the norm. */
  lemma {:induction false} UnknownTermsAddNothing(flags: Flags, idfs: map<string, nat>, query: seq<QueryEntry>, unknown: seq<QueryEntry>)
    requires flags.idfRequest
    requires forall i :: 0 <= i < |unknown| ==> unknown[i].0 !in idfs
    ensures RequestNorm(flags, idfs, query + unknown) == RequestNorm(flags, idfs, query)
    decreases |unknown|
  {
    if |unknown| > 0 {
      var all := query + unknown;
      assert all[..|all| - 1] == query + unknown[..|unknown| - 1];
      UnknownTermsAddNothing(flags, idfs, query, unknown[..|unknown| - 1]);
    } else {
      assert query + unknown == query;
    }
  }

  // ---------------------------------------------------------------------------
  // Similarity and ranking

  /** Where the floating-point computation would produce an infinity or a
      NaN, or read a missing norm. */
  datatype SimilarityError = ZeroDenominator(document: string) | MissingNorm(document: string)

  /** The similarity of one document: cosine, Jaccard or Dice in that order
      of precedence, the raw score when none is set. `sqrt` is the square
      root of the platform. */
  function Similarity(flags: Flags, sqrt: real -> real, norms: map<string, real>, normRequest: real,
                      document: string, score: real): (r: Result<real, SimilarityError>)
    ensures !flags.cosinus && !flags.jaccard && !flags.dice ==> r == Success(score)
    ensures r.Success? && score == 0.0 ==> r.value == 0.0
    ensures r.Failure? ==> (flags.cosinus || flags.jaccard || flags.dice)
                           && r.error in {ZeroDenominator(document), MissingNorm(document)}
    ensures r.Failure? && document in norms ==> r.error == ZeroDenominator(document)
    ensures (flags.cosinus || flags.jaccard || flags.dice) && document !in norms ==> r == Failure(MissingNorm(document))
    ensures flags.cosinus && document in norms ==>
              if sqrt(norms[document] * normRequest) == 0.0 then r == Failure(ZeroDenominator(document))
              else r.Success? && r.value * sqrt(norms[document] * normRequest) == score
    ensures !flags.cosinus && flags.jaccard && document in norms ==>
              if norms[document] + normRequest - score == 0.0 then r == Failure(ZeroDenominator(document))
              else r.Success? && r.value * (norms[document] + normRequest - score) == score
    ensures !flags.cosinus && !flags.jaccard && flags.dice && document in norms ==>
              if norms[document] + normRequest == 0.0 then r == Failure(ZeroDenominator(document))
              else r.Success? && r.value * (norms[document] + normRequest) == 2.0 * score
  {
    if !flags.cosinus && !flags.jaccard && !flags.dice then Success(score)
    else if document !in norms then Failure(MissingNorm(document))
    else
      var denominator :=
        if flags.cosinus then sqrt(norms[document] * normRequest)
        else if flags.jaccard then norms[document] + normRequest - score
        else norms[document] + normRequest;
      if denominator == 0.0 then Failure(ZeroDenominator(document))
      else if flags.cosinus || flags.jaccard then Success(score / denominator)
      else Success(2.0 * score / denominator)
  }

  /** The similarity of every document, in the map's iteration order, or
      the first failure. */
  function ScoreEntries(flags: Flags, sqrt: real -> real, norms: map<string, real>, normRequest: real,
                        results: map<string, real>, order: seq<string>): (r: Result<seq<Entry>, SimilarityError>)
    requires forall i :: 0 <= i < |order| ==> order[i] in results
    ensures r.Success? <==> forall i :: 0 <= i < |order| ==>
              Similarity(flags, sqrt, norms, normRequest, order[i], results[order[i]]).Success?
    ensures r.Success? ==> |r.value| == |order|
    ensures r.Success? ==> forall i :: 0 <= i < |order| ==>
              r.value[i] == (order[i], Similarity(flags, sqrt, norms, normRequest, order[i], results[order[i]]).value)
  {
    if |order| == 0 then Success([])
    else
      var s := Similarity(flags, sqrt, norms, normRequest, order[0], results[order[0]]);
      var rest := ScoreEntries(flags, sqrt, norms, normRequest, results, order[1..]);
      assert forall i :: 1 <= i < |order| ==> order[i] == order[1..][i - 1];
      if s.Failure? then Failure(s.error)
      else if rest.Failure? then Failure(rest.error)
      else Success([(order[0], s.value)] + rest.value)
  }

  /** `order` lists every key of `m` exactly once, as an iteration does. */
  predicate IsIterationOrder(m: map<string, real>, order: seq<string>)
  {
    |order| == |m|
    && (forall i :: 0 <= i < |order| ==> order[i] in m)
    && (forall d :: d in m ==> d in order)
    && (forall i, j :: 0 <= i < j < |order| ==> order[i] != order[j])
  }

  /** `calculateSimilarity`: the similarities, sorted by decreasing value,
      ties in the map's iteration order. */
  function CalculateSimilarity(flags: Flags, sqrt: real -> real, norms: map<string, real>, normRequest: real,
                               results: map<string, real>, order: seq<string>): (r: Result<seq<Entry>, SimilarityError>)
    requires IsIterationOrder(results, order)
    ensures r.Success? ==> Descending(r.value) && |r.value| == |results|
    ensures r.Success? ==> forall i :: 0 <= i < |r.value| ==>
              r.value[i].0 in results
              && Similarity(flags, sqrt, norms, normRequest, r.value[i].0, results[r.value[i].0]) == Success(r.value[i].1)
    ensures r.Success? ==> ScoreEntries(flags, sqrt, norms, normRequest, results, order).Success?
                           && multiset(r.value) == multiset(ScoreEntries(flags, sqrt, norms, normRequest, results, order).value)
    ensures r.Success? ==> DistinctDocuments(r.value)
    ensures r.Success? ==> forall d :: d in results ==> exists i :: 0 <= i < |r.value| && r.value[i].0 == d
    ensures r.Failure? <==> exists d :: d in results && Similarity(flags, sqrt, norms, normRequest, d, results[d]).Failure?
  {
    var entries :- ScoreEntries(flags, sqrt, norms, normRequest, results, order);
    var sorted := SortByValue(entries);
    assert |sorted| == |multiset(sorted)| == |multiset(entries)| == |entries|;
    forall i | 0 <= i < |sorted|
      ensures sorted[i].0 in results
              && Similarity(flags, sqrt, norms, normRequest, sorted[i].0, results[sorted[i].0]) == Success(sorted[i].1)
    {
      assert sorted[i] in multiset(entries);
      var j :| 0 <= j < |entries| && entries[j] == sorted[i];
    }
    assert DistinctDocuments(entries);
    PermutationKeepsDistinct(entries, sorted);
    forall d | d in results
      ensures exists i :: 0 <= i < |sorted| && sorted[i].0 == d
    {
      var j :| 0 <= j < |order| && order[j] == d;
      assert entries[j] in multiset(sorted);
      var i :| 0 <= i < |sorted| && sorted[i] == entries[j];
    }
    Success(sorted)
  }

  /** With no similarity measure set the ranking is the raw scores sorted:
      a permutation of the map's entries, each document once. */
  lemma RawScoresRanked(flags: Flags, sqrt: real -> real, norms: map<string, real>, normRequest: real,
                        results: map<string, real>, order: seq<string>)
    requires IsIterationOrder(results, order)
    requires !flags.cosinus && !flags.jaccard && !flags.dice
    ensures CalculateSimilarity(flags, sqrt, norms, normRequest, results, order).Success?
    ensures var r := CalculateSimilarity(flags, sqrt, norms, normRequest, results, order).value;
            multiset(r) == multiset(EntriesInOrder(results, order))
  {
    var entries := ScoreEntries(flags, sqrt, norms, normRequest, results, order);
    assert entries.value == EntriesInOrder(results, order);
  }
}

=== FILE: requests.dfy ===
/** Reading the requests file (`parseRequests`): a small state machine over
    the body's elements picks the keyword fields, each field becomes
    weighted query terms, and the requests table keeps the first weight
    stored for every (request, term) pair (`addToRequests`). */
module Requests {
  import opened Strings
  import opened Text
  import opened NGrams
  import opened Html
  import opened Outcomes

  /** The label of the definition term that announces a keyword field, as
      the parser's source spells it: "mots clés" whose UTF-8 bytes were
      read back as Mac Roman, so "é" became the two characters U+221A U+00A9. */
  const KeywordsLabel: string := "mots cl\U{221A}\U{00A9}s"

  /** Separator between the primary part and the secondary groups of a field. */
  const GroupSeparator: string := " #,"

  /** Separator between the alternatives inside one part. */
  const FieldSeparator: string := ","

  // ---------------------------------------------------------------------------
  // Which elements are read

  /** The element announces a keyword field. */
  predicate IsKeywordsLabel(e: Element)
  {
    e.tagName == "dt" && e.ownText == KeywordsLabel
  }

  /** The loop of `parseRequests`, from its current state: `lastWasLabel`
      (the previous element announced a keyword field) and `requestId` (the
      text of the last `h2`). Yields (request id, field text) for every `dd`
      read. The `dd` test runs before the `h2` update. */
  function Reads(elements: seq<Element>, lastWasLabel: bool, requestId: string): seq<(string, string)>
    decreases |elements|
  {
    if |elements| == 0 then []
    else
      var e := elements[0];
      var read := if lastWasLabel && e.tagName == "dd" then [(requestId, e.ownText)] else [];
      var nextId := if e.tagName == "h2" then e.ownText else requestId;
      read + Reads(elements[1..], IsKeywordsLabel(e), nextId)
  }

  /** The element at `k` is a `dd` directly after the keywords label. */
  predicate IsRead(elements: seq<Element>, k: nat)
    requires k < |elements|
  {
    k > 0 && IsKeywordsLabel(elements[k - 1]) && elements[k].tagName == "dd"
  }

  /** The text of the last `h2` strictly before position `k`, or "" if
      there is none. */
  function IdBefore(elements: seq<Element>, k: nat): string
    requires k <= |elements|
  {
    if k == 0 then ""
    else if elements[k - 1].tagName == "h2" then elements[k - 1].ownText
    else IdBefore(elements, k - 1)
  }

  /** The reads among the first `n` elements, described by position. */
  function ReadsUpTo(elements: seq<Element>, n: nat): seq<(string, string)>
    requires n <= |elements|
  {
    if n == 0 then []
    else ReadsUpTo(elements, n - 1)
         + (if IsRead(elements, n - 1) then [(IdBefore(elements, n - 1), elements[n - 1].ownText)] else [])
  }

  /** The state machine, started at position `j`, completes the positional
      description of the first `j` elements. */
  lemma {:induction false} ReadsFrom(elements: seq<Element>, j: nat)
    requires j <= |elements|
    ensures ReadsUpTo(elements, j)
            + Reads(elements[j..], j > 0 && IsKeywordsLabel(elements[j - 1]), IdBefore(elements, j))
            == ReadsUpTo(elements, |elements|)
    decreases |elements| - j
  {
    if j < |elements| {
      var rest := elements[j..];
      assert rest[0] == elements[j];
      assert rest[1..] == elements[j + 1..];
      ReadsFrom(elements, j + 1);
    }
  }

  /** `parseRequests` reads exactly the `dd` elements that directly follow
      the keywords label, in document order, each under the text of the
      last `h2` before it ("" before the first one). */
  lemma ReadsArePositional(elements: seq<Element>)
    ensures Reads(elements, false, "") == ReadsUpTo(elements, |elements|)
  {
    ReadsFrom(elements, 0);
  }

  /** Without the keywords label, no element is read. */
  lemma {:induction false} NoLabelNoReads(elements: seq<Element>, requestId: string)
    requires forall k :: 0 <= k < |elements| ==> !IsKeywordsLabel(elements[k])
    ensures Reads(elements, false, requestId) == []
    decreases |elements|
  {
    if |elements| > 0 {
      var e := elements[0];
      var nextId := if e.tagName == "h2" then e.ownText else requestId;
      assert forall k :: 0 <= k < |elements[1..]| ==> elements[1..][k] == elements[k + 1];
      NoLabelNoReads(elements[1..], nextId);
    }
  }

  /** The label spelled correctly, "mots clés" with U+00E9, is not the
      label the parser compares against, so a page whose keyword labels are
      spelled that way yields no keyword field at all. */
  lemma CorrectlySpelledLabelReadsNothing(elements: seq<Element>)
    requires forall k :: 0 <= k < |elements| ==>
               elements[k].tagName != "dt" || elements[k].ownText == "mots cl\U{00E9}s"
    ensures Reads(elements, false, "") == []
  {
    assert "mots cl\U{00E9}s"[7] != KeywordsLabel[7];
    NoLabelNoReads(elements, "");
  }

  // ---------------------------------------------------------------------------
  // From a keyword field to weighted terms

  /** One call of `addToRequests`. */
  datatype Insert = Insert(requestId: string, term: string, weight: real)

  /** A keyword field made only of group separators: `split(" #,")` returns
      no piece and reading its first piece throws. */
  datatype RequestError = EmptyKeywordField(requestId: string)

  /** How a secondary group's weight is computed: as the source writes it,
      `1.0/3*length`, which is `length / 3`, or as evidently intended, one
      third shared by the group's terms. */
  datatype GroupWeighting = AsWritten | Intended

  /** The weight of each term of a secondary group with `length` terms. */
  function GroupWeight(rule: GroupWeighting, length: nat): (r: real)
    ensures r >= 0.0
    ensures rule == AsWritten ==> r * 3.0 == length as real
    ensures rule == Intended && length > 0 ==> r * (3 * length) as real == 1.0
  {
    match rule
    case AsWritten => (1.0 / 3.0) * length as real
    case Intended => if length == 0 then 0.0 else 1.0 / (3 * length) as real
  }

  /** The terms of some comma-separated alternatives, one after the other. */
  function FieldsTerms(lex: Lexicon, fields: seq<string>): seq<string>
  {
    if |fields| == 0 then [] else Terms(Clean(lex, fields[0])) + FieldsTerms(lex, fields[1..])
  }

  /** A term of the alternatives is a term of one of them, and conversely. */
  lemma {:induction false} FieldsTermsMembers(lex: Lexicon, fields: seq<string>, t: string)
    ensures t in FieldsTerms(lex, fields) <==> exists i :: 0 <= i < |fields| && t in Terms(Clean(lex, fields[i]))
    decreases |fields|
  {
    if |fields| > 0 {
      FieldsTermsMembers(lex, fields[1..], t);
      if exists i :: 0 <= i < |fields| && t in Terms(Clean(lex, fields[i])) {
        var i :| 0 <= i < |fields| && t in Terms(Clean(lex, fields[i]));
        if i > 0 {
          assert fields[1..][i - 1] == fields[i];
        }
      }
      if t in FieldsTerms(lex, fields[1..]) {
        var i :| 0 <= i < |fields[1..]| && t in Terms(Clean(lex, fields[1..][i]));
        assert fields[1..][i] == fields[i + 1];
      }
    }
  }

  /** Every term stored under one request with one weight. */
  function Weighted(requestId: string, terms: seq<string>, weight: real): (r: seq<Insert>)
    ensures |r| == |terms|
    ensures forall k :: 0 <= k < |r| ==> r[k] == Insert(requestId, terms[k], weight)
  {
    seq(|terms|, k requires 0 <= k < |terms| => Insert(requestId, terms[k], weight))
  }

  /** The terms of one secondary group (its comma-separated synonyms). */
  function GroupTerms(lex: Lexicon, group: string): seq<string>
  {
    FieldsTerms(lex, JavaSplit(group, FieldSeparator))
  }

  /** The inserts of the secondary groups, given each group's terms in
      order: every term of a group weighs `GroupWeight` of the group's
      number of terms. */
  function GroupInserts(rule: GroupWeighting, requestId: string, termLists: seq<seq<string>>): (r: seq<Insert>)
    ensures forall k :: 0 <= k < |r| ==> r[k].requestId == requestId
  {
    if |termLists| == 0 then []
    else
      Weighted(requestId, termLists[0], GroupWeight(rule, |termLists[0]|))
      + GroupInserts(rule, requestId, termLists[1..])
  }

  /** Every secondary insert carries a term of some group, weighted by
      `GroupWeight` of that group's number of terms. */
  lemma {:induction false} GroupInsertsWeights(rule: GroupWeighting, requestId: string, termLists: seq<seq<string>>)
    ensures forall k :: 0 <= k < |GroupInserts(rule, requestId, termLists)| ==>
              exists g :: 0 <= g < |termLists|
                && GroupInserts(rule, requestId, termLists)[k].term in termLists[g]
                && GroupInserts(rule, requestId, termLists)[k].weight == GroupWeight(rule, |termLists[g]|)
    decreases |termLists|
  {
    if |termLists| > 0 {
      var ts := termLists[0];
      var head := Weighted(requestId, ts, GroupWeight(rule, |ts|));
      var tail := GroupInserts(rule, requestId, termLists[1..]);
      var r := GroupInserts(rule, requestId, termLists);
      assert r == head + tail;
      GroupInsertsWeights(rule, requestId, termLists[1..]);
      forall k | 0 <= k < |r|
        ensures exists g :: 0 <= g < |termLists|
                  && r[k].term in termLists[g]
                  && r[k].weight == GroupWeight(rule, |termLists[g]|)
      {
        if k < |head| {
          assert r[k] == head[k];
          assert r[k].term == ts[k];
          assert r[k].term in termLists[0] && r[k].weight == GroupWeight(rule, |termLists[0]|);
        } else {
          var j := k - |head|;
          assert r[k] == tail[j];
          assert 0 <= j < |tail|;
          assert exists g :: 0 <= g < |termLists[1..]|
                   && tail[j].term in termLists[1..][g]
                   && tail[j].weight == GroupWeight(rule, |termLists[1..][g]|);
          var g :| 0 <= g < |termLists[1..]|
                   && tail[j].term in termLists[1..][g]
                   && tail[j].weight == GroupWeight(rule, |termLists[1..][g]|);
          assert termLists[1..][g] == termLists[g + 1];
          assert r[k].term in termLists[g + 1] && r[k].weight == GroupWeight(rule, |termLists[g + 1]|);
        }
      }
    } else {
      assert GroupInserts(rule, requestId, termLists) == [];
    }
  }

  /** The term list of every secondary group of a field. */
  function SecondaryTerms(lex: Lexicon, field: string): (r: seq<seq<string>>)
    requires |JavaSplit(field, GroupSeparator)| > 0
    ensures |r| == |JavaSplit(field, GroupSeparator)| - 1
  {
    var parts := JavaSplit(field, GroupSeparator);
    seq(|parts| - 1, g requires 0 <= g < |parts| - 1 => GroupTerms(lex, parts[g + 1]))
  }

  /** The primary terms of a keyword field: those of the comma-separated
      alternatives before the first group separator. */
  function PrimaryTerms(lex: Lexicon, field: string): seq<string>
    requires |JavaSplit(field, GroupSeparator)| > 0
  {
    FieldsTerms(lex, JavaSplit(JavaSplit(field, GroupSeparator)[0], FieldSeparator))
  }

  /** The inserts for one keyword field read under `requestId`: first every
      primary term with weight 1.0, then the secondary groups. */
  function FieldInserts(lex: Lexicon, rule: GroupWeighting, requestId: string, field: string): (r: Result<seq<Insert>, RequestError>)
    ensures r.Failure? <==> |JavaSplit(field, GroupSeparator)| == 0
    ensures r.Failure? ==> r.error == EmptyKeywordField(requestId)
    ensures r.Success? ==> forall k :: 0 <= k < |r.value| ==> r.value[k].requestId == requestId
    ensures r.Success? ==>
              var primary := PrimaryTerms(lex, field);
              |primary| <= |r.value|
              && forall k :: 0 <= k < |primary| ==> r.value[k] == Insert(requestId, primary[k], 1.0)
  {
    var parts := JavaSplit(field, GroupSeparator);
    if |parts| == 0 then Failure(EmptyKeywordField(requestId))
    else
      Success(Weighted(requestId, PrimaryTerms(lex, field), 1.0)
              + GroupInserts(rule, requestId, SecondaryTerms(lex, field)))
  }

  /** After the primary prefix, every insert of a field carries a term of
      one of its synonym groups, with that group's weight. */
  lemma FieldInsertsGroups(lex: Lexicon, rule: GroupWeighting, requestId: string, field: string)
    requires |JavaSplit(field, GroupSeparator)| > 0
    ensures var r := FieldInserts(lex, rule, requestId, field).value;
            var primary, groups := PrimaryTerms(lex, field), SecondaryTerms(lex, field);
            forall k :: |primary| <= k < |r| ==>
              exists g :: 0 <= g < |groups| && r[k].term in groups[g]
                && r[k].weight == GroupWeight(rule, |groups[g]|)
  {
    var primary, groups := PrimaryTerms(lex, field), SecondaryTerms(lex, field);
    assert FieldInserts(lex, rule, requestId, field).value
           == Weighted(requestId, primary, 1.0) + GroupInserts(rule, requestId, groups);
    PrefixThenGroups(rule, requestId, primary, groups);
  }

  /** The primary inserts followed by the group inserts: past the primary
      prefix, each insert has a group's term and weight. */
  lemma PrefixThenGroups(rule: GroupWeighting, requestId: string, primary: seq<string>, groups: seq<seq<string>>)
    ensures var r := Weighted(requestId, primary, 1.0) + GroupInserts(rule, requestId, groups);
            forall k :: |primary| <= k < |r| ==>
              exists g :: 0 <= g < |groups| && r[k].term in groups[g]
                && r[k].weight == GroupWeight(rule, |groups[g]|)
  {
    var head := Weighted(requestId, primary, 1.0);
    var tail := GroupInserts(rule, requestId, groups);
    var r := head + tail;
    GroupInsertsWeights(rule, requestId, groups);
    forall k | |primary| <= k < |r|
      ensures exists g :: 0 <= g < |groups| && r[k].term in groups[g]
                && r[k].weight == GroupWeight(rule, |groups[g]|)
    {
      assert r[k] == tail[k - |head|];
    }
  }

  /** All inserts of the requests file, field after field; the first field
      made only of group separators stops the parse. */
  function ParseRequests(lex: Lexicon, rule: GroupWeighting, elements: seq<Element>): Result<seq<Insert>, RequestError>
  {
    InsertsOfReads(lex, rule, Reads(elements, false, ""))
  }

  /** The inserts of a sequence of reads, or the first error. */
  function InsertsOfReads(lex: Lexicon, rule: GroupWeighting, picked: seq<(string, string)>): (r: Result<seq<Insert>, RequestError>)
    ensures r.Failure? <==> exists k :: 0 <= k < |picked| && |JavaSplit(picked[k].1, GroupSeparator)| == 0
  {
    if |picked| == 0 then Success([])
    else
      var first := FieldInserts(lex, rule, picked[0].0, picked[0].1);
      if first.Failure? then Failure(first.error)
      else
        var rest := InsertsOfReads(lex, rule, picked[1..]);
        assert forall k :: 1 <= k < |picked| ==> picked[k] == picked[1..][k - 1];
        if rest.Failure? then Failure(rest.error)
        else Success(first.value + rest.value)
  }

  // ---------------------------------------------------------------------------
  // The requests table: the first weight wins

  /** The key of the requests table. */
  type Key = (string, string)

  function KeyOf(i: Insert): Key
  {
    (i.requestId, i.term)
  }

  /** `addToRequests` applied to every insert in order: an insert whose
      (request, term) pair is already stored does nothing. */
  function Store(table: map<Key, real>, inserts: seq<Insert>): (r: map<Key, real>)
    ensures table.Keys <= r.Keys
    ensures forall key :: key in table ==> r[key] == table[key]
    decreases |inserts|
  {
    if |inserts| == 0 then table
    else
      var key := KeyOf(inserts[0]);
      Store(if key in table then table else table[key := inserts[0].weight], inserts[1..])
  }

  /** The weight of the first insert for `key`, if any. */
  function FirstWeight(inserts: seq<Insert>, key: Key): Option<real>
  {
    if |inserts| == 0 then None
    else if KeyOf(inserts[0]) == key then Some(inserts[0].weight)
    else FirstWeight(inserts[1..], key)
  }

  /** A pair is stored iff it was stored before or some insert names it, and
      its weight is the one stored before or else the first insert's. */
  lemma {:induction false} StoreKeepsFirst(table: map<Key, real>, inserts: seq<Insert>, key: Key)
    ensures key in Store(table, inserts) <==> key in table || FirstWeight(inserts, key).Some?
    ensures key in table ==> Store(table, inserts)[key] == table[key]
    ensures key !in table && FirstWeight(inserts, key).Some? ==>
              Store(table, inserts)[key] == FirstWeight(inserts, key).value
    decreases |inserts|
  {
    if |inserts| > 0 {
      var k0 := KeyOf(inserts[0]);
      StoreKeepsFirst(if k0 in table then table else table[k0 := inserts[0].weight], inserts[1..], key);
    }
  }

  /** Some insert names `key` exactly when it has a first weight. */
  lemma {:induction false} FirstWeightFound(inserts: seq<Insert>, key: Key)
    ensures FirstWeight(inserts, key).Some? <==> exists k :: 0 <= k < |inserts| && KeyOf(inserts[k]) == key
    ensures FirstWeight(inserts, key).Some? ==>
              exists k :: 0 <= k < |inserts| && KeyOf(inserts[k]) == key
                && FirstWeight(inserts, key).value == inserts[k].weight
                && forall k' :: 0 <= k' < k ==> KeyOf(inserts[k']) != key
    decreases |inserts|
  {
    if |inserts| > 0 && KeyOf(inserts[0]) != key {
      FirstWeightFound(inserts[1..], key);
      var tail := inserts[1..];
      if FirstWeight(inserts, key).Some? {
        var k :| 0 <= k < |tail| && KeyOf(tail[k]) == key
                 && FirstWeight(tail, key).value == tail[k].weight
                 && forall k' :: 0 <= k' < k ==> KeyOf(tail[k']) != key;
        assert inserts[k + 1] == tail[k];
        forall k' | 0 <= k' < k + 1
          ensures KeyOf(inserts[k']) != key
        {
          if k' > 0 {
            assert inserts[k'] == tail[k' - 1];
          }
        }
      }
      if exists k :: 0 <= k < |inserts| && KeyOf(inserts[k]) == key {
        var k :| 0 <= k < |inserts| && KeyOf(inserts[k]) == key;
        assert k > 0;
        assert tail[k - 1] == inserts[k];
      }
    }
  }

  /** The first weight is decided by the earlier inserts when they name the key. */
  lemma {:induction false} FirstWeightAppend(a: seq<Insert>, b: seq<Insert>, key: Key)
    ensures FirstWeight(a + b, key) == if FirstWeight(a, key).Some? then FirstWeight(a, key) else FirstWeight(b, key)
    decreases |a|
  {
    if |a| > 0 {
      assert (a + b)[0] == a[0];
      assert (a + b)[1..] == a[1..] + b;
      FirstWeightAppend(a[1..], b, key);
    } else {
      assert a + b == b;
    }
  }

  /** The requests table built from the whole file. */
  function RequestsTable(lex: Lexicon, rule: GroupWeighting, elements: seq<Element>): Result<map<Key, real>, RequestError>
  {
    var inserts :- ParseRequests(lex, rule, elements);
    Success(Store(map[], inserts))
  }

  /** The table holds exactly the pairs some insert names, each with the
      weight of its first insert. */
  lemma RequestsTableFirstWins(lex: Lexicon, rule: GroupWeighting, elements: seq<Element>, key: Key)
    requires ParseRequests(lex, rule, elements).Success?
    ensures var inserts := ParseRequests(lex, rule, elements).value;
            var table := RequestsTable(lex, rule, elements).value;
            && (key in table <==> exists k :: 0 <= k < |inserts| && KeyOf(inserts[k]) == key)
            && (key in table ==> exists k :: 0 <= k < |inserts| && KeyOf(inserts[k]) == key
                                   && table[key] == inserts[k].weight
                                   && forall k' :: 0 <= k' < k ==> KeyOf(inserts[k']) != key)
  {
    var inserts := ParseRequests(lex, rule, elements).value;
    StoreKeepsFirst(map[], inserts, key);
    FirstWeightFound(inserts, key);
  }

  /** Within one keyword field, a primary term weighs 1.0 whatever groups
      repeat it: its primary insert comes first. */
  lemma PrimaryTermWeighsOne(lex: Lexicon, rule: GroupWeighting, requestId: string, field: string, t: string)
    requires |JavaSplit(field, GroupSeparator)| > 0
    requires t in PrimaryTerms(lex, field)
    ensures FirstWeight(FieldInserts(lex, rule, requestId, field).value, (requestId, t)) == Some(1.0)
  {
    var primary := PrimaryTerms(lex, field);
    var parts := JavaSplit(field, GroupSeparator);
    var head := Weighted(requestId, primary, 1.0);
    FirstWeightAppend(head, GroupInserts(rule, requestId, SecondaryTerms(lex, field)), (requestId, t));
    FirstWeightFound(head, (requestId, t));
    var k :| 0 <= k < |primary| && primary[k] == t;
    assert KeyOf(head[k]) == (requestId, t);
  }

  /** A successful parse of several reads is the first field's inserts
      followed by those of the remaining reads. */
  lemma InsertsOfReadsStep(lex: Lexicon, rule: GroupWeighting, picked: seq<(string, string)>)
    requires |picked| > 0 && InsertsOfReads(lex, rule, picked).Success?
    ensures FieldInserts(lex, rule, picked[0].0, picked[0].1).Success?
    ensures InsertsOfReads(lex, rule, picked[1..]).Success?
    ensures InsertsOfReads(lex, rule, picked).value
            == FieldInserts(lex, rule, picked[0].0, picked[0].1).value + InsertsOfReads(lex, rule, picked[1..]).value
  {
  }

  /** Read `k` is a field whose primary terms include `t`. */
  predicate PrimaryAt(lex: Lexicon, picked: seq<(string, string)>, k: nat, t: string)
  {
    k < |picked| && |JavaSplit(picked[k].1, GroupSeparator)| > 0 && t in PrimaryTerms(lex, picked[k].1)
  }

  /** Some read of `fields` is under request id `id`. */
  predicate HasId(fields: seq<(string, string)>, id: string)
  {
    |fields| > 0 && (fields[0].0 == id || HasId(fields[1..], id))
  }

  /** `HasId` means some read carries the id. */
  lemma {:induction false} HasIdMeansSomeRead(fields: seq<(string, string)>, id: string)
    ensures HasId(fields, id) <==> exists j :: 0 <= j < |fields| && fields[j].0 == id
    decreases |fields|
  {
    if |fields| > 0 {
      HasIdMeansSomeRead(fields[1..], id);
      if exists j :: 0 <= j < |fields| && fields[j].0 == id {
        var j :| 0 <= j < |fields| && fields[j].0 == id;
        if j > 0 {
          assert fields[1..][j - 1] == fields[j];
        }
      }
    }
  }

  /** No read before `k` has the request id of read `k`. */
  predicate FirstOfId(picked: seq<(string, string)>, k: nat)
    requires k < |picked|
  {
    !HasId(picked[..k], picked[k].0)
  }

  /** Dropping the first read keeps both facts about read `k`. */
  lemma DropFirstRead(lex: Lexicon, picked: seq<(string, string)>, k: nat, t: string)
    requires 0 < k && PrimaryAt(lex, picked, k, t) && FirstOfId(picked, k)
    ensures picked[0].0 != picked[k].0
    ensures picked[1..][k - 1] == picked[k]
    ensures PrimaryAt(lex, picked[1..], k - 1, t) && FirstOfId(picked[1..], k - 1)
  {
    assert picked[..k][0] == picked[0];
    assert picked[..k][1..] == picked[1..][..k - 1];
  }

  /** Across the fields read, a primary term of a field weighs 1.0 in the
      table unless an earlier field of the same request stored the term. */
  lemma {:induction false} PrimaryTermFirstWeight(lex: Lexicon, rule: GroupWeighting, picked: seq<(string, string)>, k: nat, t: string)
    requires InsertsOfReads(lex, rule, picked).Success?
    requires PrimaryAt(lex, picked, k, t) && FirstOfId(picked, k)
    ensures FirstWeight(InsertsOfReads(lex, rule, picked).value, (picked[k].0, t)) == Some(1.0)
    decreases k
  {
    if k == 0 {
      FirstReadPrimaryWeight(lex, rule, picked, t);
    } else {
      InsertsOfReadsStep(lex, rule, picked);
      DropFirstRead(lex, picked, k, t);
      PrimaryTermFirstWeight(lex, rule, picked[1..], k - 1, t);
      LaterReadPrimaryWeight(lex, rule, picked, k, t);
    }
  }

  /** The primary terms of the first field read weigh 1.0. */
  lemma FirstReadPrimaryWeight(lex: Lexicon, rule: GroupWeighting, picked: seq<(string, string)>, t: string)
    requires InsertsOfReads(lex, rule, picked).Success? && PrimaryAt(lex, picked, 0, t)
    ensures FirstWeight(InsertsOfReads(lex, rule, picked).value, (picked[0].0, t)) == Some(1.0)
  {
    InsertsOfReadsStep(lex, rule, picked);
    var first := FieldInserts(lex, rule, picked[0].0, picked[0].1).value;
    var rest := InsertsOfReads(lex, rule, picked[1..]).value;
    FirstWeightAppend(first, rest, (picked[0].0, t));
    PrimaryTermWeighsOne(lex, rule, picked[0].0, picked[0].1, t);
  }

  /** A later field's first weight is decided past the first field when the
      first field is read under another request id. */
  lemma LaterReadPrimaryWeight(lex: Lexicon, rule: GroupWeighting, picked: seq<(string, string)>, k: nat, t: string)
    requires InsertsOfReads(lex, rule, picked).Success? && 0 < k < |picked| && picked[0].0 != picked[k].0
    requires InsertsOfReads(lex, rule, picked[1..]).Success?
    requires FirstWeight(InsertsOfReads(lex, rule, picked[1..]).value, (picked[k].0, t)) == Some(1.0)
    ensures FirstWeight(InsertsOfReads(lex, rule, picked).value, (picked[k].0, t)) == Some(1.0)
  {
    InsertsOfReadsStep(lex, rule, picked);
    var first := FieldInserts(lex, rule, picked[0].0, picked[0].1).value;
    var rest := InsertsOfReads(lex, rule, picked[1..]).value;
    SkipOtherRequest(first, rest, picked[0].0, (picked[k].0, t));
  }

  /** Inserts of another request do not decide a key's first weight. */
  lemma SkipOtherRequest(first: seq<Insert>, rest: seq<Insert>, id: string, key: Key)
    requires forall i :: 0 <= i < |first| ==> first[i].requestId == id
    requires key.0 != id
    ensures FirstWeight(first + rest, key) == FirstWeight(rest, key)
  {
    FirstWeightAppend(first, rest, key);
    FirstWeightFound(first, key);
  }

  /** In the requests table, the primary terms of the first keyword field
      read under a request id weigh 1.0, whatever synonym groups of the same
      or later fields repeat them. */
  lemma PrimaryTermInTable(lex: Lexicon, rule: GroupWeighting, elements: seq<Element>, k: nat, t: string)
    requires RequestsTable(lex, rule, elements).Success?
    requires k < |Reads(elements, false, "")|
    requires |JavaSplit(Reads(elements, false, "")[k].1, GroupSeparator)| > 0
    requires t in PrimaryTerms(lex, Reads(elements, false, "")[k].1)
    requires forall j :: 0 <= j < k ==> Reads(elements, false, "")[j].0 != Reads(elements, false, "")[k].0
    ensures (Reads(elements, false, "")[k].0, t) in RequestsTable(lex, rule, elements).value
    ensures RequestsTable(lex, rule, elements).value[(Reads(elements, false, "")[k].0, t)] == 1.0
  {
    var picked := Reads(elements, false, "");
    var inserts := InsertsOfReads(lex, rule, picked).value;
    HasIdMeansSomeRead(picked[..k], picked[k].0);
    PrimaryTermFirstWeight(lex, rule, picked, k, t);
    StoreKeepsFirst(map[], inserts, (picked[k].0, t));
  }

  // ---------------------------------------------------------------------------
  // When a keyword field stops the parse

  /** `n` copies of `s`. */
  function Repeat(s: string, n: nat): string
  {
    if n == 0 then "" else s + Repeat(s, n - 1)
  }

  /** Joining `n + 1` empty pieces gives `n` separators. */
  lemma {:induction false} JoinEmpties(pieces: seq<string>, sep: string)
    requires |pieces| >= 1
    requires forall i :: 0 <= i < |pieces| ==> pieces[i] == ""
    ensures Join(pieces, sep) == Repeat(sep, |pieces| - 1)
    decreases |pieces|
  {
    if |pieces| > 1 {
      JoinEmpties(pieces[1..], sep);
    }
  }

  /** Splitting `n` copies of the separator gives `n + 1` empty pieces. */
  lemma {:induction false} SplitRepeat(sep: string, n: nat)
    requires |sep| > 0
    ensures Split(Repeat(sep, n), sep) == seq(n + 1, i => "")
    decreases n
  {
    if n > 0 {
      var s := Repeat(sep, n);
      assert s[..|sep|] == sep;
      assert s[|sep|..] == Repeat(sep, n - 1);
      SplitRepeat(sep, n - 1);
    } else {
      assert Repeat(sep, 0) == "";
    }
  }

  /** A keyword field stops the parse exactly when it is one or more
      copies of " #," and nothing else. */
  lemma EmptyFieldIsSeparators(field: string)
    ensures |JavaSplit(field, GroupSeparator)| == 0 <==> exists n :: n >= 1 && field == Repeat(GroupSeparator, n)
  {
    var pieces := Split(field, GroupSeparator);
    if |JavaSplit(field, GroupSeparator)| == 0 {
      JoinEmpties(pieces, GroupSeparator);
      assert |pieces| - 1 >= 1 && field == Repeat(GroupSeparator, |pieces| - 1);
    }
    if exists n :: n >= 1 && field == Repeat(GroupSeparator, n) {
      var n :| n >= 1 && field == Repeat(GroupSeparator, n);
      SplitRepeat(GroupSeparator, n);
      assert pieces[n] == "";
    }
  }

  // ---------------------------------------------------------------------------
  // The secondary weight as written and as intended

  /** As written, each term of a group of four or more outweighs a primary
      term (weight 1.0), and the group's total weight grows with the square
      of its size; the example is a group of four terms. */
  lemma AsWrittenGroupOutweighsPrimary(length: nat)
    requires length >= 4
    ensures GroupWeight(AsWritten, length) > 1.0
    ensures GroupWeight(AsWritten, 4) == 4.0 / 3.0
    ensures GroupWeight(AsWritten, length) * length as real * 3.0 == (length * length) as real
  {
  }

  /** As intended, a group's terms share one third: each weighs at most
      1/3, less than a primary term, and together they weigh exactly 1/3. */
  lemma IntendedGroupSharesAThird(length: nat)
    requires length >= 1
    ensures 0.0 < GroupWeight(Intended, length) <= 1.0 / 3.0
    ensures GroupWeight(Intended, length) * length as real == 1.0 / 3.0
  {
  }

  /** As written, in a field whose synonym groups each yield four or more
      terms, every synonym insert is heavier than a primary keyword. */
  lemma {:induction false} AsWrittenSynonymsOutweighKeywords(requestId: string, termLists: seq<seq<string>>, k: nat)
    requires forall g :: 0 <= g < |termLists| ==> |termLists[g]| >= 4
    requires k < |GroupInserts(AsWritten, requestId, termLists)|
    ensures GroupInserts(AsWritten, requestId, termLists)[k].weight > 1.0
  {
    GroupInsertsWeights(AsWritten, requestId, termLists);
    var g :| 0 <= g < |termLists|
             && GroupInserts(AsWritten, requestId, termLists)[k].term in termLists[g]
             && GroupInserts(AsWritten, requestId, termLists)[k].weight == GroupWeight(AsWritten, |termLists[g]|);
    AsWrittenGroupOutweighsPrimary(|termLists[g]|);
  }

  /** As intended, every synonym insert weighs more than 0 and at most a
      third of a primary keyword, whatever the size of its group. */
  lemma {:induction false} IntendedSynonymsWeighAtMostAThird(requestId: string, termLists: seq<seq<string>>, k: nat)
    requires k < |GroupInserts(Intended, requestId, termLists)|
    ensures 0.0 < GroupInserts(Intended, requestId, termLists)[k].weight <= 1.0 / 3.0
  {
    GroupInsertsWeights(Intended, requestId, termLists);
    var g :| 0 <= g < |termLists|
             && GroupInserts(Intended, requestId, termLists)[k].term in termLists[g]
             && GroupInserts(Intended, requestId, termLists)[k].weight == GroupWeight(Intended, |termLists[g]|);
    IntendedGroupSharesAThird(|termLists[g]|);
  }
}

=== FILE: sorting.dfy ===
/** `sortByValue`: the entries of a result map, in the map's iteration
    order, stably sorted by decreasing value into an insertion-ordered map. */
module Sorting {

  /** A (document, score) entry. */
  type Entry = (string, real)

  /** Scores never increase along the sequence. */
  predicate Descending(s: seq<Entry>)
  {
    forall i, j :: 0 <= i < j < |s| ==> s[i].1 >= s[j].1
  }

  /** The entries with score `v`, in their order. */
  function WithScore(s: seq<Entry>, v: real): seq<Entry>
  {
    if |s| == 0 then []
    else (if s[0].1 == v then [s[0]] else []) + WithScore(s[1..], v)
  }

  /** No score of `s` exceeds `b`. */
  predicate AtMost(s: seq<Entry>, b: real)
  {
    forall i :: 0 <= i < |s| ==> s[i].1 <= b
  }

  lemma ConsDescending(x: Entry, s: seq<Entry>)
    requires Descending(s) && AtMost(s, x.1)
    ensures Descending([x] + s)
  {
    forall i, j | 0 <= i < j < |[x] + s|
      ensures ([x] + s)[i].1 >= ([x] + s)[j].1
    {
      if i > 0 {
        assert ([x] + s)[i] == s[i - 1];
      }
      assert ([x] + s)[j] == s[j - 1];
    }
  }

  /** A bound on the scores holds for any rearrangement of the entries. */
  lemma AtMostPermutation(t: seq<Entry>, u: seq<Entry>, b: real)
    requires multiset(t) == multiset(u) && AtMost(u, b)
    ensures AtMost(t, b)
  {
    forall j | 0 <= j < |t|
      ensures t[j].1 <= b
    {
      assert t[j] in multiset(u);
      var k :| 0 <= k < |u| && u[k] == t[j];
    }
  }

  /** Places `x` before the first entry of `s` whose score is not above
      its own; `x` thus precedes the entries of equal score. */
  function Insert(x: Entry, s: seq<Entry>): (r: seq<Entry>)
    requires Descending(s)
    ensures multiset(r) == multiset([x] + s)
    ensures Descending(r)
    ensures |r| == |s| + 1
  {
    if |s| == 0 || x.1 >= s[0].1 then
      ConsDescending(x, s);
      [x] + s
    else
      assert s == [s[0]] + s[1..];
      var t := Insert(x, s[1..]);
      assert AtMost([x] + s[1..], s[0].1) by {
        forall i | 0 <= i < |[x] + s[1..]|
          ensures ([x] + s[1..])[i].1 <= s[0].1
        {
          if i > 0 {
            assert ([x] + s[1..])[i] == s[i];
          }
        }
      }
      AtMostPermutation(t, [x] + s[1..], s[0].1);
      ConsDescending(s[0], t);
      assert multiset([s[0]] + t) == multiset([x] + s) by {
        assert [x] + s == [x] + ([s[0]] + s[1..]);
      }
      [s[0]] + t
  }

  /** The sort: each entry is inserted, from the last one back, in front of
      the entries of equal score that come after it. */
  function SortByValue(s: seq<Entry>): (r: seq<Entry>)
    ensures Descending(r)
    ensures multiset(r) == multiset(s)
  {
    if |s| == 0 then []
    else
      assert s == [s[0]] + s[1..];
      Insert(s[0], SortByValue(s[1..]))
  }

  lemma WithScoreAppend(a: seq<Entry>, b: seq<Entry>, v: real)
    ensures WithScore(a + b, v) == WithScore(a, v) + WithScore(b, v)
  {
    if |a| == 0 {
      assert a + b == b;
    } else {
      assert (a + b)[1..] == a[1..] + b;
    }
  }

  /** Inserting keeps the relative order of the entries of every score. */
  lemma {:induction false} InsertStable(x: Entry, s: seq<Entry>, v: real)
    requires Descending(s)
    ensures WithScore(Insert(x, s), v) == WithScore([x] + s, v)
    decreases |s|
  {
    if |s| > 0 && x.1 < s[0].1 {
      InsertStable(x, s[1..], v);
      WithScoreAppend([s[0]], Insert(x, s[1..]), v);
      WithScoreAppend([s[0]], [x] + s[1..], v);
      WithScoreSwap(s[0], x, s[1..], v);
      assert [s[0]] + s[1..] == s;
    }
  }

  /** Two entries of different scores can trade places without changing the
      order within any score. */
  lemma WithScoreSwap(x: Entry, y: Entry, rest: seq<Entry>, v: real)
    requires x.1 != y.1
    ensures WithScore([x] + ([y] + rest), v) == WithScore([y] + ([x] + rest), v)
  {
    assert ([x] + ([y] + rest))[1..] == [y] + rest;
    assert ([y] + ([x] + rest))[1..] == [x] + rest;
    assert ([y] + rest)[1..] == rest;
    assert ([x] + rest)[1..] == rest;
  }

  /** The sort is stable: the entries of each score keep their input order. */
  lemma {:induction false} SortStable(s: seq<Entry>, v: real)
    ensures WithScore(SortByValue(s), v) == WithScore(s, v)
  {
    if |s| > 0 {
      SortStable(s[1..], v);
      InsertStable(s[0], SortByValue(s[1..]), v);
      WithScoreAppend([s[0]], SortByValue(s[1..]), v);
      WithScoreAppend([s[0]], s[1..], v);
      assert s == [s[0]] + s[1..];
    }
  }

  /** An already descending sequence is returned unchanged. */
  lemma {:induction false} SortKeepsDescending(s: seq<Entry>)
    requires Descending(s)
    ensures SortByValue(s) == s
  {
    if |s| > 0 {
      assert Descending(s[1..]);
      SortKeepsDescending(s[1..]);
    }
  }

  /** The documents of a ranking are distinct (they are the keys of a map). */
  predicate DistinctDocuments(ranked: seq<Entry>)
  {
    forall i, j :: 0 <= i < j < |ranked| ==> ranked[i].0 != ranked[j].0
  }

  /** With distinct documents no entry occurs twice. */
  lemma {:induction false} DistinctDocumentsSingleCopies(s: seq<Entry>, x: Entry)
    requires DistinctDocuments(s)
    ensures multiset(s)[x] <= 1
    decreases |s|
  {
    if |s| > 0 {
      var init := s[..|s| - 1];
      assert s == init + [s[|s| - 1]];
      assert DistinctDocuments(init);
      DistinctDocumentsSingleCopies(init, x);
      if s[|s| - 1] == x {
        forall k | 0 <= k < |init|
          ensures init[k] != x
        {
          assert init[k].0 != s[|s| - 1].0;
        }
        assert x !in init;
      }
    }
  }

  /** Rearranging the entries keeps the documents distinct. */
  lemma PermutationKeepsDistinct(a: seq<Entry>, b: seq<Entry>)
    requires multiset(a) == multiset(b) && DistinctDocuments(a)
    ensures DistinctDocuments(b)
  {
    forall i, j | 0 <= i < j < |b|
      ensures b[i].0 != b[j].0
    {
      if b[i] == b[j] {
        var x := b[i];
        assert b == b[..j] + b[j..];
        assert x in b[..j] && b[j..][0] == x;
        assert multiset(b)[x] == multiset(b[..j])[x] + multiset(b[j..])[x];
        DistinctDocumentsSingleCopies(a, x);
        assert false;
      } else {
        assert b[i] in multiset(a) && b[j] in multiset(a);
        var p :| 0 <= p < |a| && a[p] == b[i];
        var q :| 0 <= q < |a| && a[q] == b[j];
        assert p != q;
        if p < q {
          assert a[p].0 != a[q].0;
        } else {
          assert a[q].0 != a[p].0;
        }
      }
    }
  }

  /** The keys of the entries. */
  function Keys(s: seq<Entry>): seq<string>
  {
    seq(|s|, i requires 0 <= i < |s| => s[i].0)
  }

  /** The entries of a map in an iteration order that lists every key once. */
  function EntriesInOrder(m: map<string, real>, order: seq<string>): (r: seq<Entry>)
    requires forall i :: 0 <= i < |order| ==> order[i] in m
    ensures |r| == |order| && Keys(r) == order
  {
    seq(|order|, i requires 0 <= i < |order| => (order[i], m[order[i]]))
  }
}

=== FILE: strings.dfy ===
/** `String.join` and `String.split` with a literal separator, as the parser
    uses them: `split(" ")`, `split(",")` and `split(" #,")`. */
module Strings {

  /** The pieces with `sep` between each consecutive pair (`String.join`). */
  function Join(pieces: seq<string>, sep: string): string
  {
    if |pieces| == 0 then ""
    else if |pieces| == 1 then pieces[0]
    else pieces[0] + sep + Join(pieces[1..], sep)
  }

  /** Splits `s` at every occurrence of `sep`, scanning left to right and
      resuming after each match, keeping every piece (also empty ones). */
  function Split(s: string, sep: string): (r: seq<string>)
    requires |sep| > 0
    ensures |r| >= 1
    ensures Join(r, sep) == s
    ensures |sep| == 1 ==> forall i :: 0 <= i < |r| ==> sep[0] !in r[i]
    decreases |s|
  {
    if |s| < |sep| then [s]
    else if s[..|sep|] == sep then
      var t := Split(s[|sep|..], sep);
      JoinAfterEmpty(t, sep);
      assert s == sep + s[|sep|..];
      [""] + t
    else
      var t := Split(s[1..], sep);
      JoinExtendFirst(s[0], t, sep);
      assert s == [s[0]] + s[1..];
      assert |sep| == 1 ==> s[0] != sep[0] by {
        if |sep| == 1 {
          assert s[..1] == [s[0]];
        }
      }
      [[s[0]] + t[0]] + t[1..]
  }

  /** An empty first piece leaves just the separator before the rest. */
  lemma JoinAfterEmpty(t: seq<string>, sep: string)
    requires |t| >= 1
    ensures Join([""] + t, sep) == sep + Join(t, sep)
  {
    assert ([""] + t)[1..] == t;
  }

  /** A character put in front of the first piece goes in front of the join. */
  lemma JoinExtendFirst(c: char, t: seq<string>, sep: string)
    requires |t| >= 1
    ensures Join([[c] + t[0]] + t[1..], sep) == [c] + Join(t, sep)
  {
    assert ([[c] + t[0]] + t[1..])[1..] == t[1..];
    if |t| > 1 {
      assert Join(t, sep) == t[0] + sep + Join(t[1..], sep);
    }
  }

  /** Drops the empty pieces at the end, as `String.split` does. */
  function DropTrailingEmpty(pieces: seq<string>): (r: seq<string>)
    ensures r <= pieces
    ensures forall i :: |r| <= i < |pieces| ==> pieces[i] == ""
    ensures |r| == 0 || r[|r| - 1] != ""
  {
    if |pieces| > 0 && pieces[|pieces| - 1] == "" then DropTrailingEmpty(pieces[..|pieces| - 1])
    else pieces
  }

  /** `s.split(sep)` for a separator without regular-expression
      metacharacters: when `sep` does not occur the result is `[s]` (even for
      the empty string); otherwise trailing empty pieces are removed, which
      can leave no piece at all. */
  function JavaSplit(s: string, sep: string): (r: seq<string>)
    requires |sep| > 0
    ensures |Split(s, sep)| == 1 ==> r == [s]
    ensures r <= Split(s, sep)
    ensures forall i :: |r| <= i < |Split(s, sep)| ==> Split(s, sep)[i] == ""
    ensures |Split(s, sep)| > 1 ==> |r| == 0 || r[|r| - 1] != ""
  {
    var pieces := Split(s, sep);
    if |pieces| == 1 then pieces else DropTrailingEmpty(pieces)
  }

  /** Splitting at a one-character separator, one character at a time. */
  lemma SplitCons(c: char, rest: string, d: char)
    ensures Split([c] + rest, [d]) ==
      if c == d then [""] + Split(rest, [d])
      else [[c] + Split(rest, [d])[0]] + Split(rest, [d])[1..]
  {
    assert ([c] + rest)[..1] == [c];
    assert ([c] + rest)[1..] == rest;
  }

  /** A word free of the separator stays in the first piece. */
  lemma {:induction false} SplitAfterWord(w: string, rest: string, d: char)
    requires d !in w
    ensures Split(w + rest, [d]) == [w + Split(rest, [d])[0]] + Split(rest, [d])[1..]
    decreases |w|
  {
    if |w| > 0 {
      var a := w[1..] + rest;
      assert w + rest == [w[0]] + a;
      assert w[0] != d by { assert w[0] in w; }
      SplitCons(w[0], a, d);
      SplitAfterWord(w[1..], rest, d);
      var t := Split(rest, [d]);
      var u := Split(a, [d]);
      assert Split(w + rest, [d]) == [[w[0]] + u[0]] + u[1..];
      assert u[0] == w[1..] + t[0] && u[1..] == t[1..];
      assert [w[0]] + (w[1..] + t[0]) == w + t[0] by {
        assert w == [w[0]] + w[1..];
      }
    } else {
      var t := Split(rest, [d]);
      assert w + rest == rest;
      assert w + t[0] == t[0];
      assert t == [t[0]] + t[1..];
    }
  }

  /** Round trip: splitting a join at a separator no piece contains gives the
      pieces back. */
  lemma {:induction false} SplitJoin(ws: seq<string>, d: char)
    requires |ws| >= 1
    requires forall i :: 0 <= i < |ws| ==> d !in ws[i]
    ensures Split(Join(ws, [d]), [d]) == ws
  {
    if |ws| == 1 {
      SplitAfterWord(ws[0], "", d);
      assert ws[0] + "" == ws[0];
    } else {
      var rest := Join(ws[1..], [d]);
      assert Join(ws, [d]) == ws[0] + ([d] + rest);
      SplitAfterWord(ws[0], [d] + rest, d);
      SplitCons(d, rest, d);
      SplitJoin(ws[1..], d);
      var t := Split([d] + rest, [d]);
      assert t == [""] + ws[1..];
      assert t[0] == "" && t[1..] == ws[1..];
      assert ws[0] + "" == ws[0];
      assert ws == [ws[0]] + ws[1..];
    }
  }

  /** A join contains the separator character exactly when it joins at least
      two pieces that are themselves free of it. */
  lemma SeparatorInJoin(ws: seq<string>, d: char)
    requires forall i :: 0 <= i < |ws| ==> d !in ws[i]
    ensures d in Join(ws, [d]) <==> |ws| >= 2
  {
    if |ws| >= 2 {
      var j := Join(ws, [d]);
      assert j == ws[0] + [d] + Join(ws[1..], [d]);
      assert j[|ws[0]|] == d;
    }
  }
}

=== FILE: text.dfy ===
/** Text cleaning of the parser (`clean`, `getListOfWords`, `isAlpha`,
    `isStopword`): punctuation and whitespace separate words, each word is
    lower-cased, filtered and stemmed. */
module Text {
  import opened Strings

  /** The language-dependent collaborators, left abstract: the Unicode classes
      `\p{P}`, `\s` and `\p{L}`, `String.toLowerCase`, the Snowball stemmer
      and the loaded stopword set. */
  datatype Lexicon = Lexicon(
    isPunct: char -> bool,
    isSpace: char -> bool,
    isLetter: char -> bool,
    lower: string -> string,
    stem: string -> string,
    stopwords: set<string>)
  {
    /** Every character of `w` is a letter (`w.matches("\\p{L}*")`). */
    predicate Letters(w: string) {
      forall i :: 0 <= i < |w| ==> isLetter(w[i])
    }

    /** The facts about the collaborators that the properties below rely on:
        lower-casing keeps the empty string empty, the blank is whitespace and
        not a letter, and stemming a non-empty word of letters gives a
        non-empty word of letters. */
    ghost predicate Valid() {
      && lower("") == ""
      && isSpace(' ')
      && !isLetter(' ')
      && forall w :: |w| > 0 && Letters(w) ==> |stem(w)| > 0 && Letters(stem(w))
    }

    /** Punctuation and whitespace both end a word. */
    predicate IsSeparator(c: char) {
      isPunct(c) || isSpace(c)
    }
  }

  /** Whether `getListOfWords` keeps a split word: its lower-case form is
      non-empty, made of letters only and not a stopword. */
  predicate Kept(lex: Lexicon, w: string) {
    var l := lex.lower(w);
    |l| != 0 && lex.Letters(l) && l !in lex.stopwords
  }

  /** `getListOfWords`: each kept word, lower-cased then stemmed, in order. */
  function ListOfWords(lex: Lexicon, words: seq<string>): (r: seq<string>)
    ensures |r| <= |words|
    ensures lex.Valid() ==> forall i :: 0 <= i < |r| ==> |r[i]| > 0 && ' ' !in r[i]
  {
    if |words| == 0 then []
    else
      var tail := ListOfWords(lex, words[1..]);
      if Kept(lex, words[0]) then
        KeptWordShape(lex, words[0]);
        [lex.stem(lex.lower(words[0]))] + tail
      else tail
  }

  /** A kept word becomes a non-empty word without blanks. */
  lemma KeptWordShape(lex: Lexicon, w: string)
    requires Kept(lex, w)
    ensures lex.Valid() ==> |lex.stem(lex.lower(w))| > 0 && ' ' !in lex.stem(lex.lower(w))
  {
    if lex.Valid() {
      var l := lex.lower(w);
      assert |lex.stem(l)| > 0 && lex.Letters(lex.stem(l));
    }
  }

  /** The words `getListOfWords` emits are exactly the stems of the kept
      input words. */
  lemma {:induction false} ListOfWordsMembers(lex: Lexicon, words: seq<string>)
    ensures forall p :: p in words && Kept(lex, p) ==> lex.stem(lex.lower(p)) in ListOfWords(lex, words)
    ensures forall w :: w in ListOfWords(lex, words) ==>
              exists p :: p in words && Kept(lex, p) && w == lex.stem(lex.lower(p))
  {
    if |words| > 0 {
      ListOfWordsMembers(lex, words[1..]);
      assert words == [words[0]] + words[1..];
      forall w | w in ListOfWords(lex, words)
        ensures exists p :: p in words && Kept(lex, p) && w == lex.stem(lex.lower(p))
      {
        if w !in ListOfWords(lex, words[1..]) {
          assert Kept(lex, words[0]) && w == lex.stem(lex.lower(words[0]));
        } else {
          var p :| p in words[1..] && Kept(lex, p) && w == lex.stem(lex.lower(p));
          assert p in words;
        }
      }
    }
  }

  /** `text.replaceAll("\\p{P}", " ")`. */
  function Blank(lex: Lexicon, text: string): string
  {
    seq(|text|, i requires 0 <= i < |text| => if lex.isPunct(text[i]) then ' ' else text[i])
  }

  /** `text.replaceAll("\\s+", " ")`: a whitespace character followed by
      another is dropped, and the last of a run becomes one blank. */
  function CollapseSpaces(lex: Lexicon, text: string): string
    decreases |text|
  {
    if |text| == 0 then ""
    else if lex.isSpace(text[0]) then
      if |text| >= 2 && lex.isSpace(text[1]) then CollapseSpaces(lex, text[1..])
      else " " + CollapseSpaces(lex, text[1..])
    else [text[0]] + CollapseSpaces(lex, text[1..])
  }

  /** `clean`: blank out punctuation, collapse whitespace, `split(" ")`, then
      `getListOfWords`. */
  function Clean(lex: Lexicon, text: string): (r: seq<string>)
    ensures lex.Valid() ==> forall i :: 0 <= i < |r| ==> |r[i]| > 0 && ' ' !in r[i]
  {
    ListOfWords(lex, JavaSplit(CollapseSpaces(lex, Blank(lex, text)), " "))
  }

  // ---------------------------------------------------------------------------
  // An independent description of the words of a text

  /** The non-empty pieces, in order. */
  function NonEmpty(pieces: seq<string>): seq<string>
  {
    if |pieces| == 0 then []
    else if pieces[0] == "" then NonEmpty(pieces[1..])
    else [pieces[0]] + NonEmpty(pieces[1..])
  }

  /** Every separator turned into a blank. */
  function Separated(lex: Lexicon, text: string): string
  {
    seq(|text|, i requires 0 <= i < |text| => if lex.IsSeparator(text[i]) then ' ' else text[i])
  }

  /** The words of a text: its maximal runs of non-separator characters. */
  function Tokens(lex: Lexicon, text: string): (r: seq<string>)
    ensures forall i :: 0 <= i < |r| ==> |r[i]| > 0 && ' ' !in r[i]
  {
    NonEmptyProperties(Split(Separated(lex, text), " "));
    NonEmpty(Split(Separated(lex, text), " "))
  }

  lemma {:induction false} NonEmptyProperties(pieces: seq<string>)
    requires forall i :: 0 <= i < |pieces| ==> ' ' !in pieces[i]
    ensures forall i :: 0 <= i < |NonEmpty(pieces)| ==> |NonEmpty(pieces)[i]| > 0 && ' ' !in NonEmpty(pieces)[i]
  {
    if |pieces| > 0 {
      NonEmptyProperties(pieces[1..]);
    }
  }

  lemma {:induction false} NonEmptyAppend(a: seq<string>, b: seq<string>)
    ensures NonEmpty(a + b) == NonEmpty(a) + NonEmpty(b)
  {
    if |a| > 0 {
      assert (a + b)[1..] == a[1..] + b;
      NonEmptyAppend(a[1..], b);
    } else {
      assert a + b == b;
    }
  }

  /** `getListOfWords` works word by word: it maps a concatenation to the
      concatenation of the results, so it keeps the order of the words. */
  lemma {:induction false} ListOfWordsAppend(lex: Lexicon, a: seq<string>, b: seq<string>)
    ensures ListOfWords(lex, a + b) == ListOfWords(lex, a) + ListOfWords(lex, b)
  {
    if |a| > 0 {
      assert (a + b)[1..] == a[1..] + b;
      assert (a + b)[0] == a[0];
      ListOfWordsAppend(lex, a[1..], b);
    } else {
      assert a + b == b;
    }
  }

  /** What `getListOfWords` makes of a single word. */
  lemma ListOfWordsSingle(lex: Lexicon, w: string)
    ensures ListOfWords(lex, [w]) == if Kept(lex, w) then [lex.stem(lex.lower(w))] else []
  {
    assert [w][1..] == [];
  }

  /** Empty pieces never produce a word. */
  lemma {:induction false} ListOfWordsSkipsEmpty(lex: Lexicon, pieces: seq<string>)
    requires lex.lower("") == ""
    ensures ListOfWords(lex, NonEmpty(pieces)) == ListOfWords(lex, pieces)
  {
    if |pieces| > 0 {
      ListOfWordsSkipsEmpty(lex, pieces[1..]);
      if pieces[0] != "" {
        assert ([pieces[0]] + NonEmpty(pieces[1..]))[1..] == NonEmpty(pieces[1..]);
      }
    }
  }

  /** `String.split` only drops empty pieces. */
  lemma JavaSplitKeepsWords(s: string, sep: string)
    requires |sep| > 0
    ensures NonEmpty(JavaSplit(s, sep)) == NonEmpty(Split(s, sep))
  {
    var all := Split(s, sep);
    var kept := JavaSplit(s, sep);
    var dropped := all[|kept|..];
    assert all == kept + dropped;
    NonEmptyAppend(kept, dropped);
    AllEmpty(dropped);
  }

  lemma {:induction false} AllEmpty(pieces: seq<string>)
    requires forall i :: 0 <= i < |pieces| ==> pieces[i] == ""
    ensures NonEmpty(pieces) == []
  {
    if |pieces| > 0 {
      AllEmpty(pieces[1..]);
    }
  }

  /** Every whitespace character turned into a blank. */
  function Whitened(lex: Lexicon, text: string): string
  {
    seq(|text|, i requires 0 <= i < |text| => if lex.isSpace(text[i]) then ' ' else text[i])
  }

  lemma WhitenedCons(lex: Lexicon, text: string)
    requires |text| > 0
    ensures Whitened(lex, text) == [if lex.isSpace(text[0]) then ' ' else text[0]] + Whitened(lex, text[1..])
  {
  }

  /** Collapsing runs of whitespace changes the pieces of `split(" ")` only
      by empty ones: the first piece is the same, and so are the non-empty
      later pieces. */
  lemma {:induction false} CollapseKeepsPieces(lex: Lexicon, text: string)
    requires lex.isSpace(' ')
    ensures Split(CollapseSpaces(lex, text), " ")[0] == Split(Whitened(lex, text), " ")[0]
    ensures NonEmpty(Split(CollapseSpaces(lex, text), " ")[1..]) == NonEmpty(Split(Whitened(lex, text), " ")[1..])
    decreases |text|
  {
    if |text| > 0 {
      CollapseKeepsPieces(lex, text[1..]);
      WhitenedCons(lex, text);
      if !lex.isSpace(text[0]) {
        CollapseWordChar(lex, text);
      } else if |text| >= 2 && lex.isSpace(text[1]) {
        CollapseDoubleSpace(lex, text);
      } else {
        CollapseLastSpace(lex, text);
      }
    }
  }

  lemma CollapseWordChar(lex: Lexicon, text: string)
    requires lex.isSpace(' ') && |text| > 0 && !lex.isSpace(text[0])
    requires Whitened(lex, text) == [text[0]] + Whitened(lex, text[1..])
    requires Split(CollapseSpaces(lex, text[1..]), " ")[0] == Split(Whitened(lex, text[1..]), " ")[0]
    requires NonEmpty(Split(CollapseSpaces(lex, text[1..]), " ")[1..]) == NonEmpty(Split(Whitened(lex, text[1..]), " ")[1..])
    ensures Split(CollapseSpaces(lex, text), " ")[0] == Split(Whitened(lex, text), " ")[0]
    ensures NonEmpty(Split(CollapseSpaces(lex, text), " ")[1..]) == NonEmpty(Split(Whitened(lex, text), " ")[1..])
  {
    var c := text[0];
    assert c != ' ';
    assert CollapseSpaces(lex, text) == [c] + CollapseSpaces(lex, text[1..]);
    SplitCons(c, CollapseSpaces(lex, text[1..]), ' ');
    SplitCons(c, Whitened(lex, text[1..]), ' ');
  }

  lemma CollapseDoubleSpace(lex: Lexicon, text: string)
    requires lex.isSpace(' ') && |text| >= 2 && lex.isSpace(text[0]) && lex.isSpace(text[1])
    requires Whitened(lex, text) == [' '] + Whitened(lex, text[1..])
    requires Split(CollapseSpaces(lex, text[1..]), " ")[0] == Split(Whitened(lex, text[1..]), " ")[0]
    requires NonEmpty(Split(CollapseSpaces(lex, text[1..]), " ")[1..]) == NonEmpty(Split(Whitened(lex, text[1..]), " ")[1..])
    ensures Split(CollapseSpaces(lex, text), " ")[0] == Split(Whitened(lex, text), " ")[0]
    ensures NonEmpty(Split(CollapseSpaces(lex, text), " ")[1..]) == NonEmpty(Split(Whitened(lex, text), " ")[1..])
  {
    var w1 := Whitened(lex, text[1..]);
    WhitenedCons(lex, text[1..]);
    assert w1 == [' '] + w1[1..];
    SplitCons(' ', w1, ' ');
    SplitCons(' ', w1[1..], ' ');
    var y1 := Split(w1, " ");
    assert y1[0] == "";
    assert Split(Whitened(lex, text), " ") == [""] + y1;
    assert y1 == [y1[0]] + y1[1..];
  }

  lemma CollapseLastSpace(lex: Lexicon, text: string)
    requires lex.isSpace(' ') && |text| >= 1 && lex.isSpace(text[0])
    requires !(|text| >= 2 && lex.isSpace(text[1]))
    requires Whitened(lex, text) == [' '] + Whitened(lex, text[1..])
    requires Split(CollapseSpaces(lex, text[1..]), " ")[0] == Split(Whitened(lex, text[1..]), " ")[0]
    requires NonEmpty(Split(CollapseSpaces(lex, text[1..]), " ")[1..]) == NonEmpty(Split(Whitened(lex, text[1..]), " ")[1..])
    ensures Split(CollapseSpaces(lex, text), " ")[0] == Split(Whitened(lex, text), " ")[0]
    ensures NonEmpty(Split(CollapseSpaces(lex, text), " ")[1..]) == NonEmpty(Split(Whitened(lex, text), " ")[1..])
  {
    var c1 := CollapseSpaces(lex, text[1..]);
    var w1 := Whitened(lex, text[1..]);
    assert CollapseSpaces(lex, text) == [' '] + c1;
    SplitCons(' ', c1, ' ');
    SplitCons(' ', w1, ' ');
    var x1 := Split(c1, " ");
    var y1 := Split(w1, " ");
    assert x1 == [x1[0]] + x1[1..];
    assert y1 == [y1[0]] + y1[1..];
    NonEmptyAppend([x1[0]], x1[1..]);
    NonEmptyAppend([y1[0]], y1[1..]);
  }

  /** The word sequence `clean` produces is exactly `getListOfWords` applied
      to the maximal runs of non-separator characters of the text. */
  lemma {:induction false} CleanIsWordsOfTokens(lex: Lexicon, text: string)
    requires lex.Valid()
    ensures Clean(lex, text) == ListOfWords(lex, Tokens(lex, text))
  {
    var u := CollapseSpaces(lex, Blank(lex, text));
    ListOfWordsSkipsEmpty(lex, JavaSplit(u, " "));
    JavaSplitKeepsWords(u, " ");
    ListOfWordsSkipsEmpty(lex, Split(u, " "));
    CollapseKeepsPieces(lex, Blank(lex, text));
    assert Whitened(lex, Blank(lex, text)) == Separated(lex, text);
    var x := Split(u, " ");
    var y := Split(Separated(lex, text), " ");
    assert x == [x[0]] + x[1..];
    assert y == [y[0]] + y[1..];
    NonEmptyAppend([x[0]], x[1..]);
    NonEmptyAppend([y[0]], y[1..]);
    ListOfWordsSkipsEmpty(lex, y);
  }
}
